=== FILE: README.md ===
# smart-search ranking core in Dafny

This project models the ranking core of a hybrid tool-search service written in Go:

- how a search request fans out to a vector index and a keyword index;
- how their hits are fused by tool ID and ordered by score;
- how the score floor and the size cap are applied, and how results are slimmed for the response;
- how a language-model reply is cleaned into a JSON query understanding and expanded into queries;
- how a re-ranking reply rewrites the scores and reorders the candidates.

Scores are mathematical reals.
The backends (vector store, keyword index, chat completion) are function-typed parameters.
So are the JSON steps: "is this text a JSON object" and "decode this text".

Modules:

| module | models |
|---|---|
| `Wrappers` | `Option` and `Result` |
| `Models` | the records of pkg/models/models.go |
| `Seqs` | distinctness and multiplicity lemmas |
| `ScoreOrder` | the descending sort shared by merging and re-ranking |
| `Merge` | `mergeResults` |
| `Service` | `Search`, the fan-out `k`, the score floor, `applyScoreThreshold`, truncation and projection |
| `SearchExample` | a worked example: vector hits A 0.9 and B 0.5, keyword hits B 0.8 and C 0.6, TopK 2 |
| `Text` | `strings.Index`, `strings.LastIndex` and `strings.TrimSpace` |
| `Understanding` | `cleanOllamaResponse`, `UnderstandQuery` and `ExpandQuery` |
| `Rerank` | `Rerank` |

Go's randomised map iteration order and the unstable `sort.Slice` are modelled by one fixed order.
The helpers `Merge.FirstSeen` and `Merge.SeenValues` list tool IDs in first-appearance order, and the sort is an insertion sort.
That order is one choice among those Go may produce.
The contracts of `Merge.MergeResults` and `Rerank.Rerank` do not depend on it: they promise only sorted by non-increasing score, and the same elements.
`Service.Search` is stated in terms of `MergeResults`, so among equal scores it follows the model's order; `Service.SearchResponseRanked` states what holds for any order.

## Behaviour of the code worth knowing

- `Search` cuts the response to `k = 2 * TopK`, the fan-out size, not to `TopK`.
  With TopK 2, vector hits A 0.9 and B 0.5 and keyword hits B 0.8 and C 0.6, it returns three results: A, C and B.
- A tool found only by the vector index keeps its raw score. It is not multiplied by 0.7, so A scores 0.9.
- `Search` applies no request filters and does not call the reranker.
- The reranker's final sort is `sort.Slice`, which is not stable: equal scores may come out in any order.
- An undecodable re-ranking reply is an error; the candidates are not returned.
- `UnderstandQuery` returns an error when the cleaned text does not decode into a `QueryUnderstanding`.
  The extraction slice `cleaned[jsonStart:jsonEnd]` can also panic when the start lies past the end.
- The check `jsonEnd == 0` in `cleanOllamaResponse` can never fire, because the index has already been incremented past -1.
  The model omits that branch because it is dead.

## Model

| member | source | states |
|---|---|---|
| Service.FanOut | pkg/search/service.go:42-46 | `k` is always at least 1; it is `2 * TopK` for 1 <= TopK < 2^62, 10 for non-positive TopK down to -2^62, the 64-bit wrapped product `2 * TopK + 2^64` for -2^63 < TopK < -2^62, 10 for TopK = -2^63 (the product wraps to 0), and 10 for TopK >= 2^62 |
| Service.ScoreFloor | pkg/search/service.go:82-85 | the floor is always positive: the request's MinScore when positive, else the default 0.3 |
| Service.AtLeast | pkg/search/service.go:161-167 | a result is kept exactly when it scores at least the floor, and the list never grows |
| Service.AtLeastAppend | pkg/search/service.go:162-166 | filtering distributes over concatenation |
| Service.AtLeastAllPass | pkg/search/service.go:162-166 | when every score reaches the floor, nothing is dropped |
| Service.AtLeastOfSortedIsPrefix | pkg/search/service.go:156-167 | on a list sorted by non-increasing score, the filtered list is a prefix of the input |
| Service.ApplyScoreThreshold | pkg/search/service.go:156-168 | a non-positive floor returns the input unchanged; otherwise the result is exactly the input's results scoring at least the floor, in order |
| Service.Truncate | pkg/search/service.go:89-92 | at most `k` results remain, and they are the first `k` of the input (the whole input when it is shorter) |
| Service.Slim | pkg/search/service.go:95-107 | keeps ID, name, description and the four score channels; category, tags, confidence and justification come back empty, and every other Tool field (version, both schemas, both timestamps) comes back at its zero value |
| Service.SlimIsProjection | pkg/search/service.go:95-107 | slimming is idempotent, and two results slim to the same value exactly when their kept fields agree |
| Service.SlimAll | pkg/search/service.go:95-108 | the response list has the same length as the cut list, each entry slimmed in place |
| Service.Search | pkg/search/service.go:34-115 | fails exactly when a retrieval fails, with the vector error when both fail; otherwise it returns min(k, number of fused results at or above the floor) slimmed results, `total` equal to that count, and the elapsed time passed in |
| Service.ThresholdThenCut | pkg/search/service.go:86-92 | filtering then cutting a sorted list yields a sorted prefix of it, every entry of which reaches the floor |
| Service.SelectedIsTopOfRanking | pkg/search/service.go:78-92 | the results a search keeps are a prefix of the fused ranking, sorted, with distinct IDs, all at or above the floor |
| Service.SearchResponseRanked | pkg/search/service.go:94-114 | when both retrievals succeed the search succeeds, and its response is sorted by non-increasing score, has distinct tool IDs, holds at most `k` results with `total` equal to their number, and every result reaches the floor |
| ScoreOrder.Insert | pkg/search/service.go:149-151 | inserting into a list sorted by non-increasing score keeps it sorted and adds exactly that one element |
| ScoreOrder.SortByScoreDesc | pkg/search/service.go:149-151 | the output is sorted by non-increasing score and is a permutation of the input |
| ScoreOrder.PermutationKeepsIds | internal/rerank/reranker.go:111-113 | reordering results reorders their IDs: a permutation of results has the same multiset of IDs |
| Merge.FoldVectorSpec | pkg/search/service.go:122-125 | after the vector loop, each ID maps to its last vector hit with `vectorScore` set to that hit's score; other IDs keep their earlier entry |
| Merge.FoldKeywordSpec | pkg/search/service.go:128-140 | after the keyword loop, an ID already seen gets the last keyword score and the 0.7/0.3 fused score; a new ID keeps its first keyword hit with `vectorScore` 0 and the last keyword score |
| Merge.SeenMapSpec | pkg/search/service.go:119-140 | the `seen` map holds exactly the IDs of either hit list, each bound to its fused entry |
| Merge.CountPositive | pkg/search/service.go:128-139 | an ID occurs in a list exactly when its count there is positive |
| Merge.SingleHit | pkg/search/service.go:128-139 | an ID counted once in a list has that one hit as both its first and its last |
| Merge.FirstSeen | pkg/search/service.go:143-146 | the map's key list has no repeats and holds exactly the IDs of the input |
| Merge.SeenValues | pkg/search/service.go:143-146 | the collected values have distinct IDs, cover exactly the IDs of both hit lists in order of first appearance, and each is the fused entry of its ID |
| Merge.MergeResults | pkg/search/service.go:117-154 | the merged list has unique tool IDs, holds exactly the IDs of the vector and keyword hits, gives each its fused entry, and is sorted by non-increasing score |
| Merge.MergedVectorOnly | pkg/search/service.go:122-125 | a tool found only by the vector index keeps its unweighted vector score as its score |
| Merge.MergedBoth | pkg/search/service.go:129-134 | a tool found by both indexes scores 0.7 times its vector score plus 0.3 times its last keyword score |
| Merge.MergedKeywordOnly | pkg/search/service.go:135-139 | a tool found once, only by the keyword index, scores its keyword score and has vector score 0 |
| Merge.MergedKeywordRepeated | pkg/search/service.go:129-139 | a tool found only by the keyword index but more than once is fused on its second hit: score 0.3 times the last keyword score |
| SearchExample.MergedExample | pkg/search/service.go:117-154 | the worked example merges to A 0.9, C 0.6, B 0.59 |
| SearchExample.SearchExample | pkg/search/service.go:34-115 | the worked example with TopK 2 returns A, C and B, with total 3 |
| Text.IndexOf | internal/query/understanding.go:60 | the first position where the pattern occurs, or none when it occurs nowhere |
| Text.LastIndexOf | internal/query/understanding.go:69 | the last position holding the character, or none when it does not occur |
| Text.TrimSpace | internal/query/understanding.go:86 | the result is the input with leading and trailing Unicode white space removed, and begins and ends with a non-space |
| Text.TrimSpaceIdempotent | internal/query/understanding.go:86 | trimming twice is trimming once |
| Understanding.ThinkSpanEnd | internal/query/understanding.go:56 | the end of the shortest `<think>...</think>` match starting at position 0, in which `.` matches no newline; none when no such match exists |
| Understanding.StripThink | internal/query/understanding.go:56-57 | removing reasoning blocks never lengthens the text and introduces no new characters |
| Understanding.StripThinkWithoutOpenTag | internal/query/understanding.go:56-57 | text without `<think>` is left unchanged |
| Understanding.StripThinkKeepsPlainPrefix | internal/query/understanding.go:56-57 | text before the first `<` passes through unchanged |
| Understanding.StripThinkDropsSpan | internal/query/understanding.go:56-57 | a one-line `<think>...</think>` block whose body holds no `</think>` is removed entirely |
| Understanding.StripThinkSpanStep | internal/query/understanding.go:56-57 | a reasoning span at the front of the text is deleted and the replacement continues right after it |
| Understanding.StripThinkKeepsUnmatchedPrefix | internal/query/understanding.go:56-57 | every character before the leftmost position where a span starts is kept as is, so with the span step the result is the text with the leftmost-first spans deleted |
| Understanding.MultiLineReasoningKept | internal/query/understanding.go:56 | a reasoning block spread over two lines is not removed, because `.` does not match a newline |
| Understanding.JsonStart | internal/query/understanding.go:60-67 | the start is just after the first "```json" marker when there is one; otherwise the first `{`; none when neither exists |
| Understanding.JsonEnd | internal/query/understanding.go:69-76 | the end is one past the last `}`, with no `}` after it; none exactly when the text has no `}` |
| Understanding.CleanOllamaResponse | internal/query/understanding.go:54-98 | cleaning returns `{}` or a text the JSON check accepts, and panics only with a start past the end |
| Understanding.CleanedIsJsonObject | internal/query/understanding.go:88-97 | if `{}` counts as a JSON object, every returned text is one |
| Understanding.CleanedIsTrimmedSpan | internal/query/understanding.go:76-86 | a returned text other than `{}` is the trimmed span from the start marker through the last `}` |
| Understanding.OrderedBoundsReturnValidatedSpan | internal/query/understanding.go:83-97 | when both bounds exist and the start is not past the end, the trimmed span is returned exactly when it validates, and `{}` otherwise |
| Understanding.NoClosingBraceFallsBack | internal/query/understanding.go:69-73 | a response without `}` cleans to `{}` |
| Understanding.PanicWhenStartPastEnd | internal/query/understanding.go:78-83 | the slice panics exactly when both bounds exist and the start lies past the end |
| Understanding.BraceBeforeObjectPanics | internal/query/understanding.go:83 | the response "}x{" makes the slice [2:1] panic |
| Understanding.ReasoningThenFencedObject | internal/query/understanding.go:54-98 | a reasoning block followed by a fenced JSON object cleans to the bare object |
| Understanding.UnderstandQuery | internal/query/understanding.go:23-52 | a completion error, a panicking extraction and an undecodable cleaned text each give their own error; otherwise the result is the decoded understanding |
| Understanding.UnparseableGivesEmptyUnderstanding | internal/query/understanding.go:42-51 | a completion without any `}` yields the empty understanding |
| Understanding.Expansion | internal/query/understanding.go:107-110 | the expansion is the query, then every expanded term, then every sub-query, in order |
| Understanding.ExpandQuery | internal/query/understanding.go:100-113 | an understanding error is passed on unchanged; otherwise the result is the query followed by its expansion |
| Rerank.RankingsMap | internal/rerank/reranker.go:87-99 | the map holds exactly the IDs that occur in the reply |
| Rerank.RankingsMapLastWins | internal/rerank/reranker.go:91-99 | a repeated ID is bound to the score and justification of its last entry |
| Rerank.ApplyRanking | internal/rerank/reranker.go:102-108 | a matched candidate gets the new score as both score and reranked score, plus the new justification; an unmatched one is unchanged; tool, vector, keyword and confidence never change |
| Rerank.ApplyRankings | internal/rerank/reranker.go:102-108 | every candidate is updated in place, none dropped or moved, and the ID list is unchanged |
| Rerank.Rerank | internal/rerank/reranker.go:25-116 | an empty list is returned as is; a chat error and an undecodable reply are errors, and a reply without choices (an index panic in Go) is the `NoChoices` error; a decodable first choice always succeeds, and then the result is the updated candidates sorted by non-increasing score, with the same elements and the same IDs |

## Left out

- Floating point: scores are reals, so NaN, infinities and rounding in `0.7 * v + 0.3 * k` are not modelled.
- The backends: the vector store, the OpenSearch client and the chat clients become parameters.
  `VectorStore.Search`, `OpenSearchClient.Search` and the Ollama and OpenAI clients are not part of this model.
- Concurrency: the errgroup fan-out and context cancellation are left out.
  When both retrievals fail, Go returns whichever error errgroup recorded first.
  The model always reports the vector error in that case.
- Time and logging: the elapsed milliseconds are a parameter of `Search`, and the `log.Printf`/`fmt.Printf` calls have no effect in the model.
- JSON: encoding, decoding and validity are parameters.
  So are prompt construction and `mustMarshal` in the reranker, which only build the text sent to the backend.
- Unicode: strings are sequences of code points. `strings.Index` and `LastIndex` return byte offsets in Go.
  The positions coincide on ASCII text. On other text, the slice bounds reported with a panic are code-point positions.
- Dimension reduction, the pgvector store, the configuration and the command-line programs lie outside this ranking core.
- Tie order: Go's map iteration is random and `sort.Slice` is unstable.
  The model fixes one order, and contracts say nothing about the relative order of equal scores.
- Panics: Go panics in two places, and the model turns both into error values.
  The slice `cleaned[jsonStart:jsonEnd]` with the start past the end becomes `Panicked` and then `ExtractionPanicked`.
  `resp.Choices[0]` on a reply without choices becomes `NoChoices`.
  The model says nothing about how a panic unwinds through the caller.
- Rerank: Go updates and reorders the caller's slice in place and returns that same slice; the model returns a new sequence and leaves its argument as it was.
- The index-settings check at the start of `Search` only logs its outcome, so `Search` takes no input for it.
- Platform width: Go's `int` is taken to be 64 bits wide, as on 64-bit platforms; on 32-bit targets `TopK * 2` would wrap at 2^31 instead.

=== FILE: merge.dfy ===
/**
 * `mergeResults` (pkg/search/service.go:117-154): vector hits and keyword hits
 * are folded, left to right, into a map keyed by tool ID, and the map's values
 * are sorted by descending score.
 */
module Merge {
  import opened Models
  import opened Seqs
  import ScoreOrder

  /** Weight of the vector channel when an ID is found by both retrievals. */
  const VectorWeight: real := 0.7
  /** Weight of the keyword channel when an ID is found by both retrievals. */
  const KeywordWeight: real := 0.3

  type Seen = map<string, SearchResult>

  /** One vector hit: its score is copied into `vectorScore` and it replaces any earlier entry. */
  function VectorStep(seen: Seen, hit: SearchResult): Seen {
    seen[hit.tool.id := hit.(vectorScore := hit.score)]
  }

  /**
   * One keyword hit: an existing entry gets the keyword score and is re-fused
   * from its own `vectorScore`; a new entry is the hit with `vectorScore` 0.
   */
  function KeywordStep(seen: Seen, hit: SearchResult): Seen {
    var id := hit.tool.id;
    if id in seen then
      var existing := seen[id];
      seen[id := existing.(keywordScore := hit.score,
                           score := existing.vectorScore * VectorWeight + hit.score * KeywordWeight)]
    else
      seen[id := hit.(keywordScore := hit.score, vectorScore := 0.0)]
  }

  function FoldVector(seen: Seen, hits: seq<SearchResult>): Seen
    decreases |hits|
  {
    if |hits| == 0 then seen
    else VectorStep(FoldVector(seen, hits[..|hits| - 1]), hits[|hits| - 1])
  }

  function FoldKeyword(seen: Seen, hits: seq<SearchResult>): Seen
    decreases |hits|
  {
    if |hits| == 0 then seen
    else KeywordStep(FoldKeyword(seen, hits[..|hits| - 1]), hits[|hits| - 1])
  }

  /** The map `seen` after both loops of `mergeResults`. */
  function SeenMap(vector: seq<SearchResult>, keyword: seq<SearchResult>): Seen {
    FoldKeyword(FoldVector(map[], vector), keyword)
  }

  // ---------------------------------------------------------------------------
  // Reference description of one merged entry, independent of the fold

  /** How many hits carry the tool ID `id`. */
  function CountId(hits: seq<SearchResult>, id: string): nat
    decreases |hits|
  {
    if |hits| == 0 then 0
    else CountId(hits[..|hits| - 1], id) + (if hits[|hits| - 1].tool.id == id then 1 else 0)
  }

  /** The last hit that carries the tool ID `id`. */
  function LastHit(hits: seq<SearchResult>, id: string): (h: SearchResult)
    requires id in Ids(hits)
    ensures h in hits && h.tool.id == id
    decreases |hits|
  {
    var p := hits[..|hits| - 1];
    IdsAppend(p, [hits[|hits| - 1]]);
    assert hits == p + [hits[|hits| - 1]];
    if hits[|hits| - 1].tool.id == id then hits[|hits| - 1] else LastHit(p, id)
  }

  /** The first hit that carries the tool ID `id`. */
  function FirstHit(hits: seq<SearchResult>, id: string): (h: SearchResult)
    requires id in Ids(hits)
    ensures h in hits && h.tool.id == id
    decreases |hits|
  {
    var p := hits[..|hits| - 1];
    IdsAppend(p, [hits[|hits| - 1]]);
    assert hits == p + [hits[|hits| - 1]];
    if id in Ids(p) then FirstHit(p, id) else hits[|hits| - 1]
  }

  /**
   * The entry `mergeResults` keeps for `id`, stated per retrieval channel:
   * found by vector search only, by both, or by keyword search only (once, or
   * several times, in which case the repeat is fused against a zero vector score).
   */
  ghost function Fused(vector: seq<SearchResult>, keyword: seq<SearchResult>, id: string): SearchResult
    requires id in Ids(vector) || id in Ids(keyword)
  {
    if id in Ids(vector) then
      var v := LastHit(vector, id);
      if id in Ids(keyword) then
        var k := LastHit(keyword, id);
        v.(vectorScore := v.score, keywordScore := k.score,
           score := VectorWeight * v.score + KeywordWeight * k.score)
      else
        v.(vectorScore := v.score)
    else
      var k := LastHit(keyword, id);
      if CountId(keyword, id) == 1 then
        k.(keywordScore := k.score, vectorScore := 0.0)
      else
        FirstHit(keyword, id).(keywordScore := k.score, vectorScore := 0.0,
                               score := KeywordWeight * k.score)
  }

  // ---------------------------------------------------------------------------
  // The fold meets the reference

  lemma IdsSnoc(p: seq<SearchResult>, h: SearchResult, id: string)
    ensures id in Ids(p + [h]) <==> id in Ids(p) || id == h.tool.id
  {
    IdsAppend(p, [h]);
    assert Ids([h]) == [h.tool.id];
  }

  /** After the vector loop, each ID maps to its last vector hit, with `vectorScore` set. */
  lemma {:induction false} FoldVectorSpec(seen: Seen, hits: seq<SearchResult>, id: string)
    ensures id in FoldVector(seen, hits) <==> id in seen || id in Ids(hits)
    ensures id in Ids(hits) ==>
      FoldVector(seen, hits)[id] == LastHit(hits, id).(vectorScore := LastHit(hits, id).score)
    ensures id !in Ids(hits) && id in seen ==> FoldVector(seen, hits)[id] == seen[id]
    decreases |hits|
  {
    if |hits| > 0 {
      var p := hits[..|hits| - 1];
      var h := hits[|hits| - 1];
      assert hits == p + [h];
      IdsSnoc(p, h, id);
      FoldVectorSpec(seen, p, id);
    }
  }

  /** What the keyword loop leaves for `id`, starting from the map `seen`. */
  ghost function KeywordOutcome(seen: Seen, hits: seq<SearchResult>, id: string): SearchResult
    requires id in seen || id in Ids(hits)
  {
    if id !in Ids(hits) then seen[id]
    else
      var k := LastHit(hits, id);
      if id in seen then
        seen[id].(keywordScore := k.score,
                  score := seen[id].vectorScore * VectorWeight + k.score * KeywordWeight)
      else if CountId(hits, id) == 1 then
        k.(keywordScore := k.score, vectorScore := 0.0)
      else
        FirstHit(hits, id).(keywordScore := k.score, vectorScore := 0.0,
                            score := 0.0 * VectorWeight + k.score * KeywordWeight)
  }

  lemma {:induction false} CountPositive(hits: seq<SearchResult>, id: string)
    ensures id in Ids(hits) <==> CountId(hits, id) > 0
    decreases |hits|
  {
    if |hits| > 0 {
      var p := hits[..|hits| - 1];
      assert hits == p + [hits[|hits| - 1]];
      IdsSnoc(p, hits[|hits| - 1], id);
      CountPositive(p, id);
    }
  }

  /** A tool ID met exactly once has the same first and last hit. */
  lemma {:induction false} SingleHit(hits: seq<SearchResult>, id: string)
    requires id in Ids(hits) && CountId(hits, id) == 1
    ensures FirstHit(hits, id) == LastHit(hits, id)
    decreases |hits|
  {
    var p := hits[..|hits| - 1];
    var h := hits[|hits| - 1];
    assert hits == p + [h];
    IdsSnoc(p, h, id);
    CountPositive(p, id);
    if h.tool.id != id {
      SingleHit(p, id);
    }
  }

  /** A keyword hit for another ID leaves the reference entry of `id` alone. */
  lemma KeywordStepOther(seen: Seen, p: seq<SearchResult>, h: SearchResult, id: string)
    requires h.tool.id != id && (id in seen || id in Ids(p))
    requires id in seen || id in Ids(p + [h])
    ensures KeywordOutcome(seen, p + [h], id) == KeywordOutcome(seen, p, id)
  {
    var hits := p + [h];
    assert hits[..|hits| - 1] == p;
    IdsSnoc(p, h, id);
  }

  /** A new ID met for the first time by the keyword loop. */
  lemma KeywordStepFresh(seen: Seen, p: seq<SearchResult>, h: SearchResult)
    requires h.tool.id !in seen && h.tool.id !in Ids(p)
    requires h.tool.id in Ids(p + [h])
    ensures KeywordOutcome(seen, p + [h], h.tool.id) == h.(keywordScore := h.score, vectorScore := 0.0)
  {
    var hits := p + [h];
    assert hits[..|hits| - 1] == p;
    IdsSnoc(p, h, h.tool.id);
    CountPositive(p, h.tool.id);
  }

  /** A repeated keyword-only ID is re-fused against its zero vector score. */
  lemma KeywordStepRepeat(seen: Seen, p: seq<SearchResult>, h: SearchResult, prev: SearchResult)
    requires h.tool.id !in seen && h.tool.id in Ids(p)
    requires h.tool.id in Ids(p + [h])
    requires prev == KeywordOutcome(seen, p, h.tool.id)
    ensures KeywordOutcome(seen, p + [h], h.tool.id)
         == prev.(keywordScore := h.score, score := prev.vectorScore * VectorWeight + h.score * KeywordWeight)
  {
    var id := h.tool.id;
    var hits := p + [h];
    assert hits[..|hits| - 1] == p;
    IdsSnoc(p, h, id);
    CountPositive(p, id);
    if CountId(p, id) == 1 {
      SingleHit(p, id);
    }
    assert FirstHit(hits, id) == FirstHit(p, id);
    assert LastHit(hits, id) == h;
    assert CountId(hits, id) > 1;
  }

  /** A keyword hit for an ID already in the starting map is fused with its vector score. */
  lemma KeywordStepSeen(seen: Seen, p: seq<SearchResult>, h: SearchResult, prev: SearchResult)
    requires h.tool.id in seen
    requires prev == KeywordOutcome(seen, p, h.tool.id)
    ensures KeywordOutcome(seen, p + [h], h.tool.id)
         == prev.(keywordScore := h.score, score := prev.vectorScore * VectorWeight + h.score * KeywordWeight)
  {
    var hits := p + [h];
    assert hits[..|hits| - 1] == p;
    IdsSnoc(p, h, h.tool.id);
  }

  /** One keyword step, read at a single key. */
  lemma KeywordStepAt(prev: Seen, h: SearchResult, id: string)
    ensures id in KeywordStep(prev, h) <==> id in prev || id == h.tool.id
    ensures id != h.tool.id && id in prev ==> KeywordStep(prev, h)[id] == prev[id]
    ensures id == h.tool.id && id in prev ==>
      KeywordStep(prev, h)[id] == prev[id].(keywordScore := h.score,
        score := prev[id].vectorScore * VectorWeight + h.score * KeywordWeight)
    ensures id == h.tool.id && id !in prev ==>
      KeywordStep(prev, h)[id] == h.(keywordScore := h.score, vectorScore := 0.0)
  {
  }

  lemma {:induction false} FoldKeywordSpec(seen: Seen, hits: seq<SearchResult>, id: string)
    ensures id in FoldKeyword(seen, hits) <==> id in seen || id in Ids(hits)
    ensures id in seen || id in Ids(hits) ==>
      FoldKeyword(seen, hits)[id] == KeywordOutcome(seen, hits, id)
    decreases |hits|
  {
    if |hits| > 0 {
      var p := hits[..|hits| - 1];
      var h := hits[|hits| - 1];
      assert hits == p + [h];
      IdsSnoc(p, h, id);
      FoldKeywordSpec(seen, p, id);
      var prev := FoldKeyword(seen, p);
      assert FoldKeyword(seen, hits) == KeywordStep(prev, h);
      KeywordStepAt(prev, h, id);
      if h.tool.id != id {
        if id in seen || id in Ids(p) {
          KeywordStepOther(seen, p, h, id);
        }
      } else if id in seen {
        KeywordStepSeen(seen, p, h, prev[id]);
      } else if id in Ids(p) {
        KeywordStepRepeat(seen, p, h, prev[id]);
      } else {
        KeywordStepFresh(seen, p, h);
      }
    }
  }

  /** Every entry of the merged map is the reference entry `Fused` and is filed under its own ID. */
  lemma SeenMapSpec(vector: seq<SearchResult>, keyword: seq<SearchResult>, id: string)
    ensures id in SeenMap(vector, keyword) <==> id in Ids(vector) || id in Ids(keyword)
    ensures id in Ids(vector) || id in Ids(keyword) ==>
      && SeenMap(vector, keyword)[id] == Fused(vector, keyword, id)
      && SeenMap(vector, keyword)[id].tool.id == id
  {
    var m0 := FoldVector(map[], vector);
    FoldVectorSpec(map[], vector, id);
    FoldKeywordSpec(m0, keyword, id);
  }

  // ---------------------------------------------------------------------------
  // Turning the map into a list

  /** The IDs in order of first appearance; stands in for Go's map iteration order. */
  function FirstSeen(ids: seq<string>): (r: seq<string>)
    ensures Distinct(r)
    ensures forall id :: id in r <==> id in ids
    decreases |ids|
  {
    if |ids| == 0 then []
    else
      var p := FirstSeen(ids[..|ids| - 1]);
      assert ids == ids[..|ids| - 1] + [ids[|ids| - 1]];
      if ids[|ids| - 1] in p then p else p + [ids[|ids| - 1]]
  }

  /** Every ID in `order` is a key of the merged map, filed with its reference entry. */
  lemma OrderedKeysFused(vector: seq<SearchResult>, keyword: seq<SearchResult>, order: seq<string>)
    requires forall id :: id in order ==> id in Ids(vector) || id in Ids(keyword)
    ensures forall i :: 0 <= i < |order| ==>
      && order[i] in SeenMap(vector, keyword)
      && (order[i] in Ids(vector) || order[i] in Ids(keyword))
      && SeenMap(vector, keyword)[order[i]] == Fused(vector, keyword, order[i])
      && SeenMap(vector, keyword)[order[i]].tool.id == order[i]
  {
    forall i | 0 <= i < |order|
      ensures && order[i] in SeenMap(vector, keyword)
              && SeenMap(vector, keyword)[order[i]] == Fused(vector, keyword, order[i])
              && SeenMap(vector, keyword)[order[i]].tool.id == order[i]
    {
      SeenMapSpec(vector, keyword, order[i]);
    }
  }

  /** Listing map values along a duplicate-free key order, each filed under its own ID. */
  lemma ListedValues(seen: Seen, order: seq<string>, values: seq<SearchResult>)
    requires Distinct(order)
    requires forall i :: 0 <= i < |order| ==> order[i] in seen && seen[order[i]].tool.id == order[i]
    requires |values| == |order| && forall i :: 0 <= i < |order| ==> values[i] == seen[order[i]]
    ensures Distinct(values)
    ensures Ids(values) == order
  {
    assert Ids(values) == order;
  }

  /** The merged map's values, listed once each. */
  function SeenValues(vector: seq<SearchResult>, keyword: seq<SearchResult>): (values: seq<SearchResult>)
    ensures Distinct(values)
    ensures forall i :: 0 <= i < |values| ==>
      && (values[i].tool.id in Ids(vector) || values[i].tool.id in Ids(keyword))
      && values[i] == Fused(vector, keyword, values[i].tool.id)
    ensures forall id :: id in Ids(values) <==> id in Ids(vector) || id in Ids(keyword)
    ensures Ids(values) == FirstSeen(Ids(vector) + Ids(keyword))
  {
    var seen := SeenMap(vector, keyword);
    var order := FirstSeen(Ids(vector) + Ids(keyword));
    assert forall id :: id in Ids(vector) + Ids(keyword) <==> id in Ids(vector) || id in Ids(keyword);
    OrderedKeysFused(vector, keyword, order);
    var values := seq(|order|, i requires 0 <= i < |order| => seen[order[i]]);
    ListedValues(seen, order, values);
    values
  }

  /** Reordering the merged values keeps every entry equal to its reference entry. */
  lemma ReorderedValues(vector: seq<SearchResult>, keyword: seq<SearchResult>,
                        values: seq<SearchResult>, r: seq<SearchResult>)
    requires values == SeenValues(vector, keyword)
    requires multiset(r) == multiset(values)
    ensures forall i :: 0 <= i < |r| ==>
      (r[i].tool.id in Ids(vector) || r[i].tool.id in Ids(keyword))
      && r[i] == Fused(vector, keyword, r[i].tool.id)
  {
    forall i | 0 <= i < |r|
      ensures (r[i].tool.id in Ids(vector) || r[i].tool.id in Ids(keyword))
      ensures r[i] == Fused(vector, keyword, r[i].tool.id)
    {
      assert r[i] in multiset(r);
      assert r[i] in values;
    }
  }

  /** Duplicate-free entries that are each determined by their ID have unique IDs. */
  lemma DistinctFusedHaveUniqueIds(vector: seq<SearchResult>, keyword: seq<SearchResult>, r: seq<SearchResult>)
    requires Distinct(r)
    requires forall i :: 0 <= i < |r| ==>
      (r[i].tool.id in Ids(vector) || r[i].tool.id in Ids(keyword))
      && r[i] == Fused(vector, keyword, r[i].tool.id)
    ensures UniqueIds(r)
  {
  }

  /** Membership of tool IDs survives a reordering. */
  lemma PermutationKeepsIdMembership(a: seq<SearchResult>, b: seq<SearchResult>)
    requires multiset(a) == multiset(b)
    ensures forall id :: id in Ids(a) <==> id in Ids(b)
  {
    ScoreOrder.PermutationKeepsIds(a, b);
    forall id ensures id in Ids(a) <==> id in Ids(b) {
      assert id in Ids(a) <==> id in multiset(Ids(a));
      assert id in Ids(b) <==> id in multiset(Ids(b));
    }
  }

  /**
   * `mergeResults`: one entry per tool ID found by either retrieval, each the
   * reference entry `Fused`, ordered by non-increasing score.
   */
  function MergeResults(vector: seq<SearchResult>, keyword: seq<SearchResult>): (r: seq<SearchResult>)
    ensures UniqueIds(r)
    ensures forall id :: id in Ids(r) <==> id in Ids(vector) || id in Ids(keyword)
    ensures forall i :: 0 <= i < |r| ==>
      (r[i].tool.id in Ids(vector) || r[i].tool.id in Ids(keyword))
      && r[i] == Fused(vector, keyword, r[i].tool.id)
    ensures SortedByScore(r)
  {
    var values := SeenValues(vector, keyword);
    var r := ScoreOrder.SortByScoreDesc(values);
    PermutationKeepsDistinct(values, r);
    ReorderedValues(vector, keyword, values, r);
    DistinctFusedHaveUniqueIds(vector, keyword, r);
    PermutationKeepsIdMembership(values, r);
    r
  }

  // ---------------------------------------------------------------------------
  // The four shapes a merged entry can take

  /** Found by vector search only: the last vector hit, with `vectorScore == score`. */
  lemma MergedVectorOnly(vector: seq<SearchResult>, keyword: seq<SearchResult>, id: string)
    requires id in Ids(vector) && id !in Ids(keyword)
    ensures id in Ids(MergeResults(vector, keyword))
    ensures forall e :: e in MergeResults(vector, keyword) && e.tool.id == id ==>
      && e.vectorScore == e.score == LastHit(vector, id).score
      && e.tool == LastHit(vector, id).tool
      && e.keywordScore == LastHit(vector, id).keywordScore
  {
  }

  /** Found by both: keyword score from the last keyword hit, score fused 0.7/0.3. */
  lemma MergedBoth(vector: seq<SearchResult>, keyword: seq<SearchResult>, id: string)
    requires id in Ids(vector) && id in Ids(keyword)
    ensures id in Ids(MergeResults(vector, keyword))
    ensures forall e :: e in MergeResults(vector, keyword) && e.tool.id == id ==>
      && e.vectorScore == LastHit(vector, id).score
      && e.keywordScore == LastHit(keyword, id).score
      && e.score == 0.7 * e.vectorScore + 0.3 * e.keywordScore
  {
  }

  /** Found once, by keyword search only: vector score 0, keyword score and score the hit's. */
  lemma MergedKeywordOnly(vector: seq<SearchResult>, keyword: seq<SearchResult>, id: string)
    requires id !in Ids(vector) && id in Ids(keyword) && CountId(keyword, id) == 1
    ensures id in Ids(MergeResults(vector, keyword))
    ensures forall e :: e in MergeResults(vector, keyword) && e.tool.id == id ==>
      && e.vectorScore == 0.0
      && e.keywordScore == e.score == LastHit(keyword, id).score
  {
  }

  /**
   * Found several times by keyword search only: the repeat takes the "found by
   * both" branch against a zero vector score, so the score drops to 0.3 times
   * the last keyword score.
   */
  lemma MergedKeywordRepeated(vector: seq<SearchResult>, keyword: seq<SearchResult>, id: string)
    requires id !in Ids(vector) && CountId(keyword, id) >= 2
    ensures id in Ids(keyword) && id in Ids(MergeResults(vector, keyword))
    ensures forall e :: e in MergeResults(vector, keyword) && e.tool.id == id ==>
      && e.vectorScore == 0.0
      && e.keywordScore == LastHit(keyword, id).score
      && e.score == 0.3 * e.keywordScore
  {
    CountPositive(keyword, id);
  }
}

=== FILE: models.dfy ===
/** The records shared by the search pipeline (pkg/models/models.go). */
module Models {

  /** A decoded JSON value; stands for Go's `interface{}` in schemas and filters. */
  datatype Json =
    | JNull
    | JBool(b: bool)
    | JNumber(n: real)
    | JString(s: string)
    | JArray(items: seq<Json>)
    | JObject(fields: map<string, Json>)

  /** A point in time; `Instant(0)` plays the role of Go's zero `time.Time`. */
  datatype Instant = Instant(ticks: int)

  /** A searchable tool. Absent schemas (Go's nil maps) are empty maps. */
  datatype Tool = Tool(
    id: string,
    name: string,
    description: string,
    category: string,
    tags: seq<string>,
    inputSchema: map<string, Json>,
    outputSchema: map<string, Json>,
    version: string,
    createdAt: Instant,
    updatedAt: Instant
  )

  /** One hit: a tool plus its score channels; `score` is the one used for ordering. */
  datatype SearchResult = SearchResult(
    tool: Tool,
    score: real,
    vectorScore: real,
    keywordScore: real,
    rerankedScore: real,
    confidence: real,
    justification: string
  )

  /** A search request; `topK` is a Go `int`, 64 bits wide on 64-bit platforms, which the model assumes. */
  datatype SearchRequest = SearchRequest(
    query: string,
    filters: map<string, Json>,
    topK: int,
    minScore: real
  )

  datatype SearchResponse = SearchResponse(
    results: seq<SearchResult>,
    total: int,
    timeMs: real
  )

  datatype QueryUnderstanding = QueryUnderstanding(
    intent: string,
    expandedTerms: seq<string>,
    subQueries: seq<string>,
    filters: map<string, Json>
  )

  /** The tool with every field at its Go zero value. */
  const ZeroTool := Tool("", "", "", "", [], map[], map[], "", Instant(0), Instant(0))

  /** The value `json.Unmarshal("{}")` produces for a `QueryUnderstanding`. */
  const EmptyUnderstanding := QueryUnderstanding("", [], [], map[])

  /** The tool IDs of a list of results, in list order. */
  function Ids(s: seq<SearchResult>): (ids: seq<string>)
    ensures |ids| == |s|
    ensures forall i :: 0 <= i < |s| ==> ids[i] == s[i].tool.id
  {
    seq(|s|, i requires 0 <= i < |s| => s[i].tool.id)
  }

  lemma IdsAppend(a: seq<SearchResult>, b: seq<SearchResult>)
    ensures Ids(a + b) == Ids(a) + Ids(b)
  {
  }

  /** No two entries of `s` carry the same tool ID. */
  predicate UniqueIds(s: seq<SearchResult>) {
    forall i, j :: 0 <= i < j < |s| ==> s[i].tool.id != s[j].tool.id
  }

  /** `s` is ordered by non-increasing `score` (ties in any order). */
  predicate SortedByScore(s: seq<SearchResult>) {
    forall i, j :: 0 <= i < j < |s| ==> s[i].score >= s[j].score
  }
}

=== FILE: rerank.dfy ===
/**
 * Applying an LLM re-ranking (internal/rerank/reranker.go:25-116) once its
 * reply has been decoded into (id, score, justification) entries. Prompt
 * construction and the chat call are a parameter `chat`; JSON decoding of the
 * reply is a parameter `decode`.
 */
module Rerank {
  import opened Wrappers
  import opened Models
  import opened ScoreOrder

  /** One entry of the reply's "rankings" array. */
  datatype Ranking = Ranking(id: string, score: real, justification: string)

  /** The value stored per ID in `newRankings`. */
  datatype NewRanking = NewRanking(score: real, justification: string)

  datatype RerankError =
    | ChatFailed(cause: string)
    | NoChoices                       // `resp.Choices[0]` on an empty list panics
    | ResponseUndecodable(content: string)

  /** The chat backend: query and candidates to the reply's choice contents, or an error. */
  type Chat = (string, seq<SearchResult>) -> Result<seq<string>, string>

  /** `rankings[j]` is the last entry carrying its ID. */
  predicate LastForId(rankings: seq<Ranking>, j: nat) {
    j < |rankings| && forall k :: j < k < |rankings| ==> rankings[k].id != rankings[j].id
  }

  /** `newRankings`: one entry per ID in the reply. */
  function RankingsMap(rankings: seq<Ranking>): (m: map<string, NewRanking>)
    ensures forall id :: id in m <==> exists j :: 0 <= j < |rankings| && rankings[j].id == id
    decreases |rankings|
  {
    if |rankings| == 0 then map[]
    else
      var last := rankings[|rankings| - 1];
      RankingsMap(rankings[..|rankings| - 1])[last.id := NewRanking(last.score, last.justification)]
  }

  /** A repeated ID keeps its last entry: later assignments to the map win. */
  lemma {:induction false} RankingsMapLastWins(rankings: seq<Ranking>, j: nat)
    requires LastForId(rankings, j)
    ensures RankingsMap(rankings)[rankings[j].id] == NewRanking(rankings[j].score, rankings[j].justification)
    decreases |rankings|
  {
    var p := rankings[..|rankings| - 1];
    if j < |p| {
      assert rankings[|rankings| - 1].id != rankings[j].id;
      assert LastForId(p, j) by {
        assert forall k :: j < k < |p| ==> p[k] == rankings[k];
      }
      RankingsMapLastWins(p, j);
    }
  }

  /**
   * One candidate after the update loop: a matching ID overwrites the reranked
   * score, the score and the justification; nothing else ever changes.
   */
  function ApplyRanking(x: SearchResult, m: map<string, NewRanking>): (y: SearchResult)
    ensures y.tool == x.tool && y.vectorScore == x.vectorScore
    ensures y.keywordScore == x.keywordScore && y.confidence == x.confidence
    ensures x.tool.id in m ==>
      && y.rerankedScore == y.score == m[x.tool.id].score
      && y.justification == m[x.tool.id].justification
    ensures x.tool.id !in m ==> y == x
  {
    if x.tool.id in m then
      var n := m[x.tool.id];
      x.(rerankedScore := n.score, justification := n.justification, score := n.score)
    else x
  }

  /** The loop `for i := range results { ... }`, updating candidates in place. */
  method ApplyRankings(results: seq<SearchResult>, m: map<string, NewRanking>) returns (updated: seq<SearchResult>)
    ensures |updated| == |results|
    ensures forall i :: 0 <= i < |results| ==> updated[i] == ApplyRanking(results[i], m)
    ensures Ids(updated) == Ids(results)
  {
    updated := results;
    var i := 0;
    while i < |updated|
      invariant 0 <= i <= |updated| == |results|
      invariant forall j :: 0 <= j < i ==> updated[j] == ApplyRanking(results[j], m)
      invariant forall j :: i <= j < |updated| ==> updated[j] == results[j]
    {
      if updated[i].tool.id in m {
        var n := m[updated[i].tool.id];
        updated := updated[i := updated[i].(rerankedScore := n.score, justification := n.justification, score := n.score)];
      }
      i := i + 1;
    }
  }

  /**
   * `Rerank`. The output is the updated candidates, reordered by
   * non-increasing score: none dropped, none added.
   */
  method Rerank(query: string, results: seq<SearchResult>, chat: Chat, decode: string -> Option<seq<Ranking>>)
    returns (r: Result<seq<SearchResult>, RerankError>)
    ensures |results| == 0 ==> r == Success(results)
    ensures |results| > 0 && chat(query, results).Failure? ==>
      r == Failure(ChatFailed(chat(query, results).error))
    ensures |results| > 0 && chat(query, results).Success? && |chat(query, results).value| == 0 ==>
      r == Failure(NoChoices)
    ensures |results| > 0 && chat(query, results).Success? && |chat(query, results).value| > 0
            && decode(chat(query, results).value[0]).None? ==>
      r == Failure(ResponseUndecodable(chat(query, results).value[0]))
    ensures (|results| > 0 && chat(query, results).Success? && |chat(query, results).value| > 0
             && decode(chat(query, results).value[0]).Some?) ==> r.Success?
    ensures r.Success? && |results| > 0 ==>
      var m := RankingsMap(decode(chat(query, results).value[0]).value);
      && |r.value| == |results|
      && SortedByScore(r.value)
      && multiset(r.value) == multiset(seq(|results|, i requires 0 <= i < |results| => ApplyRanking(results[i], m)))
      && multiset(Ids(r.value)) == multiset(Ids(results))
  {
    if |results| == 0 {
      return Success(results);
    }
    var reply := chat(query, results);
    if reply.Failure? {
      return Failure(ChatFailed(reply.error));
    }
    if |reply.value| == 0 {
      return Failure(NoChoices);
    }
    var content := reply.value[0];
    var decoded := decode(content);
    if decoded.None? {
      return Failure(ResponseUndecodable(content));
    }
    var m := RankingsMap(decoded.value);
    var updated := ApplyRankings(results, m);
    var sorted := SortByScoreDesc(updated);
    PermutationKeepsIds(updated, sorted);
    assert updated == seq(|results|, i requires 0 <= i < |results| => ApplyRanking(results[i], m));
    return Success(sorted);
  }
}

=== FILE: score_order.dfy ===
/**
 * Ordering by descending `score`, as both `mergeResults` and `Rerank` do with
 * `sort.Slice(..., results[i].Score > results[j].Score)`. The model sorts by
 * insertion; only sortedness and permutation are promised, never tie order,
 * because `sort.Slice` is not stable.
 */
module ScoreOrder {
  import opened Models
  import opened Seqs

  /** A head no lower than the first entry of a sorted list keeps it sorted. */
  lemma ConsSorted(h: SearchResult, t: seq<SearchResult>)
    requires SortedByScore(t)
    requires |t| > 0 ==> h.score >= t[0].score
    ensures SortedByScore([h] + t)
  {
    var r := [h] + t;
    forall i, j | 0 <= i < j < |r| ensures r[i].score >= r[j].score {
      if i == 0 && j > 1 {
        assert r[j] == t[j - 1] && t[0].score >= t[j - 1].score;
      }
    }
  }

  /** Places `x` into the sorted `s`, before the first entry it is not below. */
  function Insert(x: SearchResult, s: seq<SearchResult>): (r: seq<SearchResult>)
    requires SortedByScore(s)
    ensures SortedByScore(r)
    ensures multiset(r) == multiset(s) + multiset{x}
    ensures |r| == |s| + 1
    ensures r[0] == x || (|s| > 0 && r[0] == s[0])
  {
    if |s| == 0 then [x]
    else if x.score >= s[0].score then
      ConsSorted(x, s);
      [x] + s
    else
      var t := Insert(x, s[1..]);
      assert s == [s[0]] + s[1..];
      assert |s| > 1 ==> s[0].score >= s[1].score;
      ConsSorted(s[0], t);
      [s[0]] + t
  }

  /** The results ordered by non-increasing score. */
  function SortByScoreDesc(s: seq<SearchResult>): (r: seq<SearchResult>)
    ensures SortedByScore(r)
    ensures multiset(r) == multiset(s)
    ensures |r| == |s|
  {
    if |s| == 0 then []
    else
      assert s == [s[0]] + s[1..];
      Insert(s[0], SortByScoreDesc(s[1..]))
  }

  /** A permutation of results is a permutation of their tool IDs. */
  lemma PermutationKeepsIds(a: seq<SearchResult>, b: seq<SearchResult>)
    requires multiset(a) == multiset(b)
    ensures multiset(Ids(a)) == multiset(Ids(b))
  {
    var id := (x: SearchResult) => x.tool.id;
    PermutationMaps(id, a, b);
    assert Ids(a) == Map(id, a);
    assert Ids(b) == Map(id, b);
  }
}

=== FILE: search_example.dfy ===
/**
 * A worked example of a hybrid search: vector hits A 0.9 and B 0.5, keyword
 * hits B 0.8 and C 0.6, TopK 2 and no MinScore. B is fused to
 * 0.5 * 0.7 + 0.8 * 0.3 = 0.59, A keeps its unweighted 0.9, and since
 * k = 2 * TopK = 4 all three survive, ranked A, C, B.
 */
module SearchExample {
  import opened Wrappers
  import opened Models
  import opened Merge
  import opened Service
  import ScoreOrder

  /** A hit for a tool that differs from `ZeroTool` only in its ID. */
  function Hit(id: string, score: real, vs: real, ks: real): SearchResult {
    SearchResult(ZeroTool.(id := id), score, vs, ks, 0.0, 0.0, "")
  }

  /** An ID already listed does not extend the first-appearance order. */
  lemma FirstSeenKeep(ids: seq<string>, x: string, prev: seq<string>)
    requires FirstSeen(ids) == prev && x in prev
    ensures FirstSeen(ids + [x]) == prev
  {
    assert (ids + [x])[..|ids|] == ids;
  }

  /** A new ID is appended to the first-appearance order. */
  lemma FirstSeenAdd(ids: seq<string>, x: string, prev: seq<string>)
    requires FirstSeen(ids) == prev && x !in prev
    ensures FirstSeen(ids + [x]) == prev + [x]
  {
    assert (ids + [x])[..|ids|] == ids;
  }

  /** First-appearance order of the concatenated ID lists. */
  lemma FirstSeenOfRepeat(a: string, b: string, c: string)
    requires a != b && b != c && a != c
    ensures FirstSeen([a, b, b, c]) == [a, b, c]
  {
    var none: seq<string> := [];
    var s1, s2, s3, s4 := none + [a], [a] + [b], [a, b] + [b], [a, b, b] + [c];
    FirstSeenAdd(none, a, none);
    assert s1 == [a] && none + [a] == [a];
    FirstSeenAdd(s1, b, [a]);
    assert s2 == [a, b] && [a] + [b] == [a, b];
    FirstSeenKeep(s2, b, [a, b]);
    assert s3 == [a, b, b];
    FirstSeenAdd(s3, c, [a, b]);
    assert s4 == [a, b, b, c] && [a, b] + [c] == [a, b, c];
  }

  lemma FirstSeenExample()
    ensures FirstSeen(["A", "B", "B", "C"]) == ["A", "B", "C"]
  {
    FirstSeenOfRepeat("A", "B", "C");
  }

  const ExVector := [Hit("A", 0.9, 0.9, 0.0), Hit("B", 0.5, 0.5, 0.0)]
  const ExKeyword := [Hit("B", 0.8, 0.0, 0.8), Hit("C", 0.6, 0.0, 0.6)]

  lemma ExampleLastHits()
    ensures Ids(ExVector) == ["A", "B"] && Ids(ExKeyword) == ["B", "C"]
    ensures LastHit(ExVector, "A") == ExVector[0]
    ensures LastHit(ExVector, "B") == ExVector[1]
    ensures LastHit(ExKeyword, "B") == ExKeyword[0]
    ensures LastHit(ExKeyword, "C") == ExKeyword[1]
    ensures CountId(ExKeyword, "C") == 1
  {
    assert ExVector[..1] == [ExVector[0]];
    assert ExKeyword[..1] == [ExKeyword[0]];
    assert Ids(ExVector[..1]) == ["A"];
    assert Ids(ExKeyword[..1]) == ["B"];
    assert CountId(ExKeyword[..1][..0], "C") == 0;
    assert CountId(ExKeyword[..1], "C") == 0;
  }

  /** The three fused entries of the `seen` map. */
  lemma ExampleFused()
    ensures Ids(ExVector) == ["A", "B"] && Ids(ExKeyword) == ["B", "C"]
    ensures Fused(ExVector, ExKeyword, "A") == Hit("A", 0.9, 0.9, 0.0)
    ensures Fused(ExVector, ExKeyword, "B") == Hit("B", 0.59, 0.5, 0.8)
    ensures Fused(ExVector, ExKeyword, "C") == Hit("C", 0.6, 0.0, 0.6)
  {
    ExampleLastHits();
  }

  /** The `seen` map after both loops. */
  lemma SeenEntriesExample()
    ensures var seen := SeenMap(ExVector, ExKeyword);
      && "A" in seen && seen["A"] == Hit("A", 0.9, 0.9, 0.0)
      && "B" in seen && seen["B"] == Hit("B", 0.59, 0.5, 0.8)
      && "C" in seen && seen["C"] == Hit("C", 0.6, 0.0, 0.6)
  {
    ExampleFused();
    SeenMapSpec(ExVector, ExKeyword, "A");
    SeenMapSpec(ExVector, ExKeyword, "B");
    SeenMapSpec(ExVector, ExKeyword, "C");
  }

  /** With three IDs in first-appearance order, the listed values follow that order. */
  lemma ValuesOfThree(vector: seq<SearchResult>, keyword: seq<SearchResult>, x: string, y: string, z: string)
    requires FirstSeen(Ids(vector) + Ids(keyword)) == [x, y, z]
    requires forall id :: id in [x, y, z] ==> id in Ids(vector) || id in Ids(keyword)
    ensures SeenValues(vector, keyword)
         == [Fused(vector, keyword, x), Fused(vector, keyword, y), Fused(vector, keyword, z)]
  {
    var values := SeenValues(vector, keyword);
    assert Ids(values) == [x, y, z];
    assert values[0].tool.id == x && values[1].tool.id == y && values[2].tool.id == z;
  }

  lemma MergedValuesExample()
    ensures SeenValues(ExVector, ExKeyword)
         == [Hit("A", 0.9, 0.9, 0.0), Hit("B", 0.59, 0.5, 0.8), Hit("C", 0.6, 0.0, 0.6)]
  {
    ExampleFused();
    assert Ids(ExVector) + Ids(ExKeyword) == ["A", "B", "B", "C"];
    FirstSeenExample();
    ValuesOfThree(ExVector, ExKeyword, "A", "B", "C");
  }

  /** Sorting three entries whose middle one scores lowest moves it to the back. */
  lemma SortThree(a: SearchResult, b: SearchResult, c: SearchResult)
    requires a.score >= c.score > b.score
    ensures ScoreOrder.SortByScoreDesc([a, b, c]) == [a, c, b]
  {
    assert [a, b, c][1..] == [b, c];
    assert [b, c][1..] == [c];
    assert ScoreOrder.SortByScoreDesc([c]) == [c];
    assert ScoreOrder.Insert(b, [c]) == [c, b];
    assert ScoreOrder.SortByScoreDesc([b, c]) == [c, b];
    assert ScoreOrder.Insert(a, [c, b]) == [a, c, b];
  }

  /** C (0.6) overtakes the fused B (0.59). */
  lemma SortedExample()
    ensures ScoreOrder.SortByScoreDesc([Hit("A", 0.9, 0.9, 0.0), Hit("B", 0.59, 0.5, 0.8), Hit("C", 0.6, 0.0, 0.6)])
         == [Hit("A", 0.9, 0.9, 0.0), Hit("C", 0.6, 0.0, 0.6), Hit("B", 0.59, 0.5, 0.8)]
  {
    SortThree(Hit("A", 0.9, 0.9, 0.0), Hit("B", 0.59, 0.5, 0.8), Hit("C", 0.6, 0.0, 0.6));
  }

  const ExRanked := [Hit("A", 0.9, 0.9, 0.0), Hit("C", 0.6, 0.0, 0.6), Hit("B", 0.59, 0.5, 0.8)]

  lemma MergedExample()
    ensures MergeResults(ExVector, ExKeyword) == ExRanked
  {
    MergedValuesExample();
    SortedExample();
  }

  lemma FanOutExample()
    ensures FanOut(2) == 4
  {
  }

  lemma SelectedUnfolds()
    ensures Selected(SearchRequest("find files", map[], 2, 0.0), ExVector, ExKeyword)
         == Truncate(AtLeast(MergeResults(ExVector, ExKeyword), 0.3), 4)
  {
    FanOutExample();
  }

  lemma RankedAllPass()
    ensures Truncate(AtLeast(ExRanked, 0.3), 4) == ExRanked
  {
    AtLeastAllPass(ExRanked, 0.3);
  }

  lemma SelectedExample()
    ensures Selected(SearchRequest("find files", map[], 2, 0.0), ExVector, ExKeyword) == ExRanked
  {
    SelectedUnfolds();
    MergedExample();
    RankedAllPass();
  }

  lemma SearchUnfolds()
    ensures var req := SearchRequest("find files", map[], 2, 0.0);
      Search(req, (q, k) => Success(ExVector), (q, k) => Success(ExKeyword), 0.0)
      == Success(SearchResponse(SlimAll(Selected(req, ExVector, ExKeyword)),
                                |Selected(req, ExVector, ExKeyword)|, 0.0))
  {
  }

  lemma SlimRankedIds()
    ensures Ids(SlimAll(ExRanked)) == ["A", "C", "B"]
  {
  }

  /** The end-to-end response: three results, not two. */
  lemma SearchExample()
    ensures var req := SearchRequest("find files", map[], 2, 0.0);
      var r := Search(req, (q, k) => Success(ExVector), (q, k) => Success(ExKeyword), 0.0);
      && r.Success?
      && Ids(r.value.results) == ["A", "C", "B"]
      && r.value.total == 3
  {
    SearchUnfolds();
    SelectedExample();
    SlimRankedIds();
  }
}

=== FILE: seqs.dfy ===
/** Facts about sequences and multisets that the ranking proofs share. */
module Seqs {

  /** No element occurs twice. */
  predicate Distinct<T(==)>(s: seq<T>) {
    forall i, j :: 0 <= i < j < |s| ==> s[i] != s[j]
  }

  lemma {:induction false} DistinctMultiplicity<T>(s: seq<T>, x: T)
    requires Distinct(s)
    ensures multiset(s)[x] <= 1
  {
    if |s| > 0 {
      var rest := s[1..];
      assert Distinct(rest) by {
        forall i, j | 0 <= i < j < |rest| ensures rest[i] != rest[j] {
          assert rest[i] == s[i + 1] && rest[j] == s[j + 1];
        }
      }
      DistinctMultiplicity(rest, x);
      assert s == [s[0]] + rest;
      assert s[0] !in multiset(rest) by {
        forall k | 0 <= k < |rest| ensures rest[k] != s[0] {
          assert rest[k] == s[k + 1];
        }
      }
    }
  }

  lemma RepeatedMultiplicity<T>(s: seq<T>, i: nat, j: nat)
    requires i < j < |s| && s[i] == s[j]
    ensures multiset(s)[s[i]] >= 2
  {
    assert s == s[..j] + [s[j]] + s[j + 1..];
    assert s[..j][i] == s[i];
    assert s[i] in multiset(s[..j]);
  }

  /** A rearrangement of a duplicate-free sequence is duplicate-free. */
  lemma PermutationKeepsDistinct<T>(a: seq<T>, b: seq<T>)
    requires multiset(a) == multiset(b)
    requires Distinct(a)
    ensures Distinct(b)
  {
    forall i, j | 0 <= i < j < |b| ensures b[i] != b[j] {
      if b[i] == b[j] {
        RepeatedMultiplicity(b, i, j);
        DistinctMultiplicity(a, b[i]);
      }
    }
  }

  /** `f` applied to every element, in order. */
  function Map<T, U>(f: T -> U, s: seq<T>): (r: seq<U>)
    ensures |r| == |s|
    ensures forall i :: 0 <= i < |s| ==> r[i] == f(s[i])
  {
    seq(|s|, i requires 0 <= i < |s| => f(s[i]))
  }

  /** Removing the element at `j` removes one copy of it from the multiset. */
  lemma MultisetRemove<T>(s: seq<T>, j: nat)
    requires j < |s|
    ensures multiset(s[..j] + s[j + 1..]) == multiset(s) - multiset{s[j]}
  {
    assert s == s[..j] + [s[j]] + s[j + 1..];
  }

  /** Mapping commutes with removing one element. */
  lemma MapRemove<T, U>(f: T -> U, s: seq<T>, j: nat)
    requires j < |s|
    ensures multiset(Map(f, s)) == multiset(Map(f, s[..j] + s[j + 1..])) + multiset{f(s[j])}
  {
    var m := Map(f, s);
    assert m == m[..j] + [f(s[j])] + m[j + 1..];
    assert Map(f, s[..j] + s[j + 1..]) == m[..j] + m[j + 1..];
  }

  /** Multisets that are equal once one common element is removed are equal. */
  lemma CancelCommon<T>(ma: multiset<T>, mb: multiset<T>, ra: multiset<T>, rb: multiset<T>, x: T)
    requires ma == ra + multiset{x} && mb == rb + multiset{x}
    requires ra == rb
    ensures ma == mb
  {
  }

  /** Putting a matching element back on both sides keeps the mapped multisets equal. */
  lemma RestoreMapped<T, U>(f: T -> U, a: seq<T>, b: seq<T>, j: nat)
    requires 0 < |a| && j < |b| && b[j] == a[0]
    requires multiset(Map(f, a[..0] + a[1..])) == multiset(Map(f, b[..j] + b[j + 1..]))
    ensures multiset(Map(f, a)) == multiset(Map(f, b))
  {
    MapRemove(f, a, 0);
    MapRemove(f, b, j);
    CancelCommon(multiset(Map(f, a)), multiset(Map(f, b)),
                 multiset(Map(f, a[..0] + a[1..])), multiset(Map(f, b[..j] + b[j + 1..])), f(a[0]));
  }

  /** Mapping a rearrangement gives a rearrangement of the mapped sequence. */
  lemma {:induction false} PermutationMaps<T, U>(f: T -> U, a: seq<T>, b: seq<T>)
    requires multiset(a) == multiset(b)
    ensures multiset(Map(f, a)) == multiset(Map(f, b))
    decreases |a|
  {
    if |a| == 0 {
      assert |b| == 0 by {
        assert |b| == |multiset(b)|;
      }
    } else {
      assert a[0] in multiset(b);
      var j :| 0 <= j < |b| && b[j] == a[0];
      MultisetRemove(a, 0);
      MultisetRemove(b, j);
      PermutationMaps(f, a[..0] + a[1..], b[..j] + b[j + 1..]);
      RestoreMapped(f, a, b, j);
    }
  }
}

=== FILE: service.dfy ===
/**
 * `Service.Search` after retrieval (pkg/search/service.go:34-115, 156-167):
 * the fan-out size, the score floor, the threshold, truncation and projection.
 * The two retrievals are given as functions of (query, k); their concurrent
 * execution is replaced by calling both and joining the outcomes.
 */
module Service {
  import opened Wrappers
  import opened Models
  import opened Merge

  const TwoTo63: int := 0x8000_0000_0000_0000
  const TwoTo64: int := 0x1_0000_0000_0000_0000

  /** A value of Go's 64-bit `int`. */
  predicate IsInt64(x: int) {
    -TwoTo63 <= x < TwoTo63
  }

  /** Two's-complement wrap-around of a mathematical integer into Go's `int`. */
  function WrapInt64(x: int): (r: int)
    ensures IsInt64(r)
    ensures (r - x) % TwoTo64 == 0
  {
    (x + TwoTo63) % TwoTo64 - TwoTo63
  }

  /** Retrieval size used when `TopK * 2` is below one. */
  const DefaultFanOut: int := 10

  /**
   * `k := req.TopK * 2; if k < 1 { k = 10 }`, with Go's wrap-around. The size
   * is at least one; for the usual range it is twice `topK`; negative requests
   * below -2^62 wrap around to a large positive size, except -2^63, whose
   * doubling wraps to 0 and so falls back to the default.
   */
  function FanOut(topK: int): (k: int)
    requires IsInt64(topK)
    ensures k >= 1
    ensures 1 <= topK < TwoTo63 / 2 ==> k == 2 * topK
    ensures -TwoTo63 / 2 <= topK < 1 ==> k == DefaultFanOut
    ensures TwoTo63 / 2 <= topK ==> k == DefaultFanOut
    ensures -TwoTo63 < topK < -TwoTo63 / 2 ==> k == 2 * topK + TwoTo64
    ensures topK == -TwoTo63 ==> k == DefaultFanOut
  {
    var doubled := WrapInt64(topK * 2);
    if doubled < 1 then DefaultFanOut else doubled
  }

  /** Score floor used when the request's `MinScore` is not positive. */
  const DefaultMinScore: real := 0.3

  /** The floor `Search` applies: the request's when positive, else 0.3. */
  function ScoreFloor(minScore: real): (floor: real)
    ensures floor > 0.0
    ensures minScore > 0.0 ==> floor == minScore
    ensures minScore <= 0.0 ==> floor == DefaultMinScore
  {
    if minScore <= 0.0 then DefaultMinScore else minScore
  }

  // ---------------------------------------------------------------------------
  // Threshold

  /** The entries whose score reaches `floor`, in their original order. */
  function AtLeast(s: seq<SearchResult>, floor: real): (r: seq<SearchResult>)
    ensures |r| <= |s|
    ensures forall x :: x in r <==> x in s && x.score >= floor
    decreases |s|
  {
    if |s| == 0 then []
    else
      var p := s[..|s| - 1];
      var last := s[|s| - 1];
      assert s == p + [last];
      AtLeast(p, floor) + (if last.score >= floor then [last] else [])
  }

  /** Filtering distributes over concatenation, so relative order is kept. */
  lemma {:induction false} AtLeastAppend(a: seq<SearchResult>, b: seq<SearchResult>, floor: real)
    ensures AtLeast(a + b, floor) == AtLeast(a, floor) + AtLeast(b, floor)
    decreases |b|
  {
    if |b| == 0 {
      assert a + b == a;
    } else {
      var q, last := b[..|b| - 1], b[|b| - 1];
      var tail := if last.score >= floor then [last] else [];
      assert (a + b)[..|a + b| - 1] == a + q && (a + b)[|a + b| - 1] == last;
      assert AtLeast(a + b, floor) == AtLeast(a + q, floor) + tail;
      assert AtLeast(b, floor) == AtLeast(q, floor) + tail;
      AtLeastAppend(a, q, floor);
    }
  }

  lemma {:induction false} AtLeastAllPass(s: seq<SearchResult>, floor: real)
    requires forall i :: 0 <= i < |s| ==> s[i].score >= floor
    ensures AtLeast(s, floor) == s
    decreases |s|
  {
    if |s| > 0 {
      var p, last := s[..|s| - 1], s[|s| - 1];
      assert forall i :: 0 <= i < |p| ==> p[i].score >= floor by {
        forall i | 0 <= i < |p| ensures p[i].score >= floor {
          assert p[i] == s[i];
        }
      }
      AtLeastAllPass(p, floor);
      assert last.score >= floor;
      assert AtLeast(s, floor) == AtLeast(p, floor) + [last];
      assert s == p + [last];
    }
  }

  /** On a list sorted by descending score, the threshold keeps exactly a prefix. */
  lemma {:induction false} AtLeastOfSortedIsPrefix(s: seq<SearchResult>, floor: real)
    requires SortedByScore(s)
    ensures AtLeast(s, floor) == s[..|AtLeast(s, floor)|]
    decreases |s|
  {
    if |s| > 0 {
      var p := s[..|s| - 1];
      var last := s[|s| - 1];
      if last.score >= floor {
        AtLeastAllPass(s, floor);
      } else {
        AtLeastOfSortedIsPrefix(p, floor);
        assert AtLeast(s, floor) == AtLeast(p, floor);
        assert s[..|AtLeast(p, floor)|] == p[..|AtLeast(p, floor)|];
      }
    }
  }

  /** `applyScoreThreshold`: identity for a floor <= 0, else the entries reaching it. */
  method ApplyScoreThreshold(results: seq<SearchResult>, minScore: real) returns (filtered: seq<SearchResult>)
    ensures minScore <= 0.0 ==> filtered == results
    ensures minScore > 0.0 ==> filtered == AtLeast(results, minScore)
  {
    if minScore <= 0.0 {
      return results;
    }
    filtered := [];
    var i := 0;
    while i < |results|
      invariant 0 <= i <= |results|
      invariant filtered == AtLeast(results[..i], minScore)
    {
      assert results[..i + 1][..i] == results[..i];
      if results[i].score >= minScore {
        filtered := filtered + [results[i]];
      }
      i := i + 1;
    }
    assert results[..i] == results;
  }

  // ---------------------------------------------------------------------------
  // Truncation and projection

  /** `finalResults[:k]` when longer than `k`. */
  function Truncate(s: seq<SearchResult>, k: nat): (r: seq<SearchResult>)
    ensures |r| == if |s| < k then |s| else k
    ensures r == s[..|r|]
  {
    if |s| > k then s[..k] else s
  }

  /**
   * The slimmed-down result: tool ID, name and description plus the four score
   * channels; every other field takes its Go zero value.
   */
  function Slim(x: SearchResult): (r: SearchResult)
    ensures r.tool.id == x.tool.id && r.tool.name == x.tool.name
    ensures r.tool.description == x.tool.description
    ensures r.score == x.score && r.vectorScore == x.vectorScore
    ensures r.keywordScore == x.keywordScore && r.rerankedScore == x.rerankedScore
    ensures r.tool.category == "" && r.tool.tags == []
    ensures r.confidence == 0.0 && r.justification == ""
    ensures r.tool.version == "" && r.tool.inputSchema == map[] && r.tool.outputSchema == map[]
    ensures r.tool.createdAt == Instant(0) && r.tool.updatedAt == Instant(0)
  {
    SearchResult(
      ZeroTool.(id := x.tool.id, name := x.tool.name, description := x.tool.description),
      x.score, x.vectorScore, x.keywordScore, x.rerankedScore, 0.0, "")
  }

  /** Projecting twice is projecting once, and only the kept fields matter. */
  lemma SlimIsProjection(x: SearchResult, y: SearchResult)
    ensures Slim(Slim(x)) == Slim(x)
    ensures Slim(x) == Slim(y) <==>
      && x.tool.id == y.tool.id && x.tool.name == y.tool.name
      && x.tool.description == y.tool.description
      && x.score == y.score && x.vectorScore == y.vectorScore
      && x.keywordScore == y.keywordScore && x.rerankedScore == y.rerankedScore
  {
  }

  function SlimAll(s: seq<SearchResult>): (r: seq<SearchResult>)
    ensures |r| == |s|
    ensures forall i :: 0 <= i < |s| ==> r[i] == Slim(s[i])
  {
    seq(|s|, i requires 0 <= i < |s| => Slim(s[i]))
  }

  // ---------------------------------------------------------------------------
  // The pipeline

  datatype SearchError =
    | VectorSearchFailed(cause: string)
    | KeywordSearchFailed(cause: string)

  /** A retrieval backend: query text and result limit to hits, or an error. */
  type Retriever = (string, int) -> Result<seq<SearchResult>, string>

  /** The entries that survive the floor and the cut to `k`, before projection. */
  function Selected(req: SearchRequest, vector: seq<SearchResult>, keyword: seq<SearchResult>): seq<SearchResult>
    requires IsInt64(req.topK)
  {
    Truncate(AtLeast(MergeResults(vector, keyword), ScoreFloor(req.minScore)), FanOut(req.topK))
  }

  /**
   * `Service.Search`. The index-settings check at the start only logs its
   * outcome, so it does not appear here. When both retrievals fail the model reports the vector
   * error; the source reports whichever failed first.
   */
  function Search(req: SearchRequest,
                  vectorSearch: Retriever, keywordSearch: Retriever,
                  elapsedMs: real): (r: Result<SearchResponse, SearchError>)
    requires IsInt64(req.topK)
    ensures r.Failure? <==>
      vectorSearch(req.query, FanOut(req.topK)).Failure? || keywordSearch(req.query, FanOut(req.topK)).Failure?
    ensures vectorSearch(req.query, FanOut(req.topK)).Failure? ==>
      r == Failure(VectorSearchFailed(vectorSearch(req.query, FanOut(req.topK)).error))
    ensures vectorSearch(req.query, FanOut(req.topK)).Success? && keywordSearch(req.query, FanOut(req.topK)).Failure? ==>
      r == Failure(KeywordSearchFailed(keywordSearch(req.query, FanOut(req.topK)).error))
    ensures r.Success? ==>
      var vector := vectorSearch(req.query, FanOut(req.topK)).value;
      var keyword := keywordSearch(req.query, FanOut(req.topK)).value;
      var kept := AtLeast(MergeResults(vector, keyword), ScoreFloor(req.minScore));
      && |r.value.results| == (if |kept| < FanOut(req.topK) then |kept| else FanOut(req.topK))
      && r.value.total == |r.value.results|
      && r.value.timeMs == elapsedMs
      && (forall i :: 0 <= i < |r.value.results| ==> r.value.results[i] == Slim(kept[i]))
  {
    var k := FanOut(req.topK);
    match vectorSearch(req.query, k)
    case Failure(e) => Failure(VectorSearchFailed(e))
    case Success(vector) =>
      match keywordSearch(req.query, k)
      case Failure(e) => Failure(KeywordSearchFailed(e))
      case Success(keyword) =>
        var results := SlimAll(Selected(req, vector, keyword));
        Success(SearchResponse(results, |results|, elapsedMs))
  }

  /** A prefix of a ranked list is ranked, and nothing after it outranks it. */
  lemma PrefixRanked(s: seq<SearchResult>, n: nat)
    requires SortedByScore(s) && UniqueIds(s) && n <= |s|
    ensures SortedByScore(s[..n]) && UniqueIds(s[..n])
    ensures forall j :: n <= j < |s| ==> forall i :: 0 <= i < n ==> s[j].score <= s[..n][i].score
  {
  }

  /** Every entry of a cut of the filtered list reaches the floor. */
  lemma CutReachesFloor(s: seq<SearchResult>, floor: real, k: nat)
    ensures forall i :: 0 <= i < |Truncate(AtLeast(s, floor), k)| ==>
      Truncate(AtLeast(s, floor), k)[i].score >= floor
  {
    var kept := AtLeast(s, floor);
    var sel := Truncate(kept, k);
    forall i | 0 <= i < |sel| ensures sel[i].score >= floor {
      assert sel[i] == kept[i];
      assert kept[i] in kept;
    }
  }

  /** Threshold then cut, on any ranked list, keeps a top prefix of it. */
  lemma {:induction false} ThresholdThenCut(s: seq<SearchResult>, floor: real, k: nat)
    requires SortedByScore(s) && UniqueIds(s)
    ensures var sel := Truncate(AtLeast(s, floor), k);
      && sel == s[..|sel|]
      && |sel| <= k
      && SortedByScore(sel) && UniqueIds(sel)
      && (forall i :: 0 <= i < |sel| ==> sel[i].score >= floor)
      && (forall j :: |sel| <= j < |s| ==> forall i :: 0 <= i < |sel| ==> s[j].score <= sel[i].score)
      && (|sel| < k ==> forall x :: x in s && x.score >= floor ==> x in sel)
  {
    var kept := AtLeast(s, floor);
    AtLeastOfSortedIsPrefix(s, floor);
    var sel := Truncate(kept, k);
    assert sel == s[..|sel|] by {
      assert sel == kept[..|sel|];
      assert kept[..|sel|] == s[..|kept|][..|sel|];
    }
    PrefixRanked(s, |sel|);
    CutReachesFloor(s, floor, k);
  }

  /**
   * What `Search` keeps is a prefix of the merged ranking: sorted, one entry per
   * tool, each at or above the floor, at most `k` long, and no left-out entry
   * outranks a kept one. When fewer than `k` are kept, all qualifying entries are.
   */
  lemma SelectedIsTopOfRanking(req: SearchRequest, vector: seq<SearchResult>, keyword: seq<SearchResult>)
    requires IsInt64(req.topK)
    ensures var sel := Selected(req, vector, keyword);
      var merged := MergeResults(vector, keyword);
      var floor := ScoreFloor(req.minScore);
      && sel == merged[..|sel|]
      && |sel| <= FanOut(req.topK)
      && SortedByScore(sel) && UniqueIds(sel)
      && (forall i :: 0 <= i < |sel| ==> sel[i].score >= floor)
      && (forall j :: |sel| <= j < |merged| ==>
            forall i :: 0 <= i < |sel| ==> merged[j].score <= sel[i].score)
      && (|sel| < FanOut(req.topK) ==>
            forall x :: x in merged && x.score >= floor ==> x in sel)
  {
    ThresholdThenCut(MergeResults(vector, keyword), ScoreFloor(req.minScore), FanOut(req.topK));
  }

  /** A successful response is ranked, holds each tool at most once, and respects the floor. */
  lemma SearchResponseRanked(req: SearchRequest,
                             vectorSearch: Retriever, keywordSearch: Retriever, elapsedMs: real)
    requires IsInt64(req.topK)
    requires vectorSearch(req.query, FanOut(req.topK)).Success?
    requires keywordSearch(req.query, FanOut(req.topK)).Success?
    ensures Search(req, vectorSearch, keywordSearch, elapsedMs).Success?
    ensures var resp := Search(req, vectorSearch, keywordSearch, elapsedMs).value;
      && SortedByScore(resp.results)
      && UniqueIds(resp.results)
      && resp.total == |resp.results| <= FanOut(req.topK)
      && (forall i :: 0 <= i < |resp.results| ==> resp.results[i].score >= ScoreFloor(req.minScore))
  {
    var k := FanOut(req.topK);
    SelectedIsTopOfRanking(req, vectorSearch(req.query, k).value, keywordSearch(req.query, k).value);
  }
}

=== FILE: text.dfy ===
/**
 * The parts of Go's `strings` and `unicode` packages that response cleaning
 * uses. Text is a sequence of code points; every marker searched for is ASCII,
 * so code-point positions and Go's UTF-8 byte offsets cut the text at the same
 * places.
 */
module Text {
  import opened Wrappers

  /** `pat` occurs in `s` starting at position `i`. */
  predicate OccursAt(s: string, pat: string, i: nat) {
    i + |pat| <= |s| && s[i..i + |pat|] == pat
  }

  function IndexFrom(s: string, pat: string, from: nat): (r: Option<nat>)
    ensures r.Some? ==> from <= r.value && OccursAt(s, pat, r.value)
    ensures r.Some? ==> forall j :: from <= j < r.value ==> !OccursAt(s, pat, j)
    ensures r.None? ==> forall j :: from <= j ==> !OccursAt(s, pat, j)
    decreases |s| - from
  {
    if from + |pat| > |s| then None
    else if s[from..from + |pat|] == pat then Some(from)
    else IndexFrom(s, pat, from + 1)
  }

  /** `strings.Index`: the first occurrence of `pat`, or `None` for Go's -1. */
  function IndexOf(s: string, pat: string): (r: Option<nat>)
    ensures r.Some? ==> OccursAt(s, pat, r.value)
    ensures r.Some? ==> forall j :: 0 <= j < r.value ==> !OccursAt(s, pat, j)
    ensures r.None? ==> forall j :: 0 <= j ==> !OccursAt(s, pat, j)
  {
    IndexFrom(s, pat, 0)
  }

  /** `strings.LastIndex` for a one-character pattern: the last occurrence of `c`. */
  function LastIndexOf(s: string, c: char): (r: Option<nat>)
    ensures r.Some? ==> r.value < |s| && s[r.value] == c
    ensures r.Some? ==> forall j :: r.value < j < |s| ==> s[j] != c
    ensures r.None? ==> forall j :: 0 <= j < |s| ==> s[j] != c
    decreases |s|
  {
    if |s| == 0 then None
    else if s[|s| - 1] == c then Some(|s| - 1)
    else LastIndexOf(s[..|s| - 1], c)
  }

  /** `unicode.IsSpace`: ASCII and Latin-1 white space plus the Unicode White_Space set. */
  predicate IsSpace(c: char) {
    || c == '\t' || c == '\n' || c == '\U{000B}' || c == '\U{000C}' || c == '\r' || c == ' '
    || c == '\U{0085}' || c == '\U{00A0}' || c == '\U{1680}'
    || ('\U{2000}' <= c <= '\U{200A}')
    || c == '\U{2028}' || c == '\U{2029}' || c == '\U{202F}' || c == '\U{205F}' || c == '\U{3000}'
  }

  /** `r` is `s` with `lead` spaces cut from the front and only spaces cut from the back. */
  predicate TrimmedBy(s: string, r: string, lead: nat) {
    && lead + |r| <= |s|
    && s[lead..lead + |r|] == r
    && (forall i :: 0 <= i < lead ==> IsSpace(s[i]))
    && (forall i :: lead + |r| <= i < |s| ==> IsSpace(s[i]))
  }

  function TrimLeft(s: string): (r: string)
    ensures |r| <= |s| && r == s[|s| - |r|..]
    ensures forall i :: 0 <= i < |s| - |r| ==> IsSpace(s[i])
    ensures |r| > 0 ==> !IsSpace(r[0])
    decreases |s|
  {
    if |s| > 0 && IsSpace(s[0]) then TrimLeft(s[1..]) else s
  }

  function TrimRight(s: string): (r: string)
    ensures |r| <= |s| && r == s[..|r|]
    ensures forall i :: |r| <= i < |s| ==> IsSpace(s[i])
    ensures |r| > 0 ==> !IsSpace(r[|r| - 1])
    decreases |s|
  {
    if |s| > 0 && IsSpace(s[|s| - 1]) then TrimRight(s[..|s| - 1]) else s
  }

  /** Cutting `lead` spaces from the front and a space-only tail from the rest. */
  lemma TrimmedInTwoSteps(s: string, left: string, r: string)
    requires |left| <= |s| && left == s[|s| - |left|..]
    requires forall i :: 0 <= i < |s| - |left| ==> IsSpace(s[i])
    requires |r| <= |left| && r == left[..|r|]
    requires forall i :: |r| <= i < |left| ==> IsSpace(left[i])
    ensures TrimmedBy(s, r, |s| - |left|)
  {
    var lead := |s| - |left|;
    assert s[lead..lead + |r|] == r by {
      assert left[..|r|] == s[lead..][..|r|];
    }
    forall i | lead + |r| <= i < |s| ensures IsSpace(s[i]) {
      assert s[i] == left[i - lead];
    }
  }

  lemma TrimBothSides(s: string)
    ensures TrimmedBy(s, TrimRight(TrimLeft(s)), |s| - |TrimLeft(s)|)
    ensures var r := TrimRight(TrimLeft(s));
      |r| > 0 ==> !IsSpace(r[0]) && !IsSpace(r[|r| - 1])
  {
    var left := TrimLeft(s);
    var r := TrimRight(left);
    TrimmedInTwoSteps(s, left, r);
    assert |r| > 0 ==> r[0] == left[0];
  }

  /** `strings.TrimSpace`: the text between the leading and trailing white space. */
  function TrimSpace(s: string): (r: string)
    ensures exists lead :: TrimmedBy(s, r, lead)
    ensures |r| > 0 ==> !IsSpace(r[0]) && !IsSpace(r[|r| - 1])
  {
    TrimBothSides(s);
    TrimRight(TrimLeft(s))
  }

  /** Trimming is idempotent: text without outer white space is left alone. */
  lemma TrimSpaceIdempotent(s: string)
    requires |s| > 0 ==> !IsSpace(s[0]) && !IsSpace(s[|s| - 1])
    ensures TrimSpace(s) == s
  {
  }

  /** One leading white-space character before an already trimmed text is removed. */
  lemma TrimSpaceAfterSpace(c: char, y: string)
    requires IsSpace(c) && |y| > 0 && !IsSpace(y[0]) && !IsSpace(y[|y| - 1])
    ensures TrimSpace([c] + y) == y
  {
    var x := [c] + y;
    assert x[1..] == y;
    assert TrimLeft(y) == y;
    assert TrimLeft(x) == y;
    assert TrimRight(y) == y;
  }
}

=== FILE: understanding.dfy ===
/**
 * Query understanding (internal/query/understanding.go): recovering a JSON
 * object from a free-text LLM completion, decoding it, and expanding a query.
 * The completion backend, "is a JSON object" and "decodes into
 * QueryUnderstanding" are parameters: `complete`, `isJsonObject` and `decode`.
 */
module Understanding {
  import opened Wrappers
  import opened Models
  import opened Text

  const ThinkOpen: string := "<think>"
  const ThinkClose: string := "</think>"
  const JsonFence: string := "```json"
  const EmptyObject: string := "{}"

  // ---------------------------------------------------------------------------
  // Removing reasoning spans: regexp `<think>.*?</think>` with RE2's `.`,
  // which does not match a newline

  /** `s[..e]` is a reasoning span: open tag, a body without newlines, close tag. */
  predicate ThinkSpan(s: string, e: nat) {
    && |ThinkOpen| + |ThinkClose| <= e <= |s|
    && OccursAt(s, ThinkOpen, 0)
    && OccursAt(s, ThinkClose, e - |ThinkClose|)
    && forall i :: |ThinkOpen| <= i < e - |ThinkClose| ==> s[i] != '\n'
  }

  lemma NewlineEndsSearch(s: string, j: nat)
    requires j < |s| && s[j] == '\n' && |ThinkOpen| <= j
    requires !OccursAt(s, ThinkClose, j)
    ensures forall e: nat :: j + |ThinkClose| <= e ==> !ThinkSpan(s, e)
  {
    forall e: nat | j + |ThinkClose| < e ensures !ThinkSpan(s, e) {
      assert |ThinkOpen| <= j < e - |ThinkClose|;
    }
  }

  function CloseFrom(s: string, j: nat): (r: Option<nat>)
    requires OccursAt(s, ThinkOpen, 0) && |ThinkOpen| <= j <= |s|
    requires forall i :: |ThinkOpen| <= i < j ==> s[i] != '\n'
    ensures r.Some? ==> ThinkSpan(s, r.value) && j + |ThinkClose| <= r.value
    ensures r.Some? ==> forall e: nat :: j + |ThinkClose| <= e < r.value ==> !ThinkSpan(s, e)
    ensures r.None? ==> forall e: nat :: j + |ThinkClose| <= e ==> !ThinkSpan(s, e)
    decreases |s| - j
  {
    if j + |ThinkClose| > |s| then None
    else if s[j..j + |ThinkClose|] == ThinkClose then
      assert ThinkSpan(s, j + |ThinkClose|);
      Some(j + |ThinkClose|)
    else if s[j] == '\n' then
      NewlineEndsSearch(s, j);
      None
    else
      assert !ThinkSpan(s, j + |ThinkClose|);
      CloseFrom(s, j + 1)
  }

  /**
   * Where the lazy match starting at position 0 ends: the shortest reasoning
   * span, or `None` when the text does not start one.
   */
  function ThinkSpanEnd(s: string): (r: Option<nat>)
    ensures r.Some? ==> ThinkSpan(s, r.value)
    ensures r.Some? ==> forall e: nat :: e < r.value ==> !ThinkSpan(s, e)
    ensures r.None? ==> forall e: nat :: !ThinkSpan(s, e)
  {
    if OccursAt(s, ThinkOpen, 0) then CloseFrom(s, |ThinkOpen|) else None
  }

  /**
   * `ReplaceAllString(response, "")`: one left-to-right pass that drops each
   * leftmost reasoning span and keeps every other character. Text exposed by a
   * removal is not searched again.
   */
  function StripThink(s: string): (r: string)
    ensures |r| <= |s|
    ensures forall i :: 0 <= i < |r| ==> r[i] in s
    decreases |s|
  {
    if |s| == 0 then ""
    else match ThinkSpanEnd(s)
      case Some(e) =>
        var r := StripThink(s[e..]);
        assert forall i :: 0 <= i < |r| ==> r[i] in s[e..] ==> r[i] in s;
        r
      case None =>
        var r := StripThink(s[1..]);
        assert forall i :: 0 <= i < |r| ==> r[i] in s[1..] ==> r[i] in s;
        [s[0]] + r
  }

  /** Text holding no open tag comes back unchanged. */
  lemma {:induction false} StripThinkWithoutOpenTag(s: string)
    requires forall i: nat :: !OccursAt(s, ThinkOpen, i)
    ensures StripThink(s) == s
    decreases |s|
  {
    if |s| > 0 {
      assert ThinkSpanEnd(s) == None;
      forall i: nat ensures !OccursAt(s[1..], ThinkOpen, i) {
        assert !OccursAt(s, ThinkOpen, i + 1);
        if i + |ThinkOpen| <= |s[1..]| {
          assert s[1..][i..i + |ThinkOpen|] == s[i + 1..i + 1 + |ThinkOpen|];
        }
      }
      StripThinkWithoutOpenTag(s[1..]);
    }
  }

  /** Text before any `<` passes through untouched. */
  lemma {:induction false} StripThinkKeepsPlainPrefix(p: string, t: string)
    requires '<' !in p
    ensures StripThink(p + t) == p + StripThink(t)
    decreases |p|
  {
    if |p| > 0 {
      var s := p + t;
      assert s[0] == p[0] && s[0] != '<';
      assert |s| < |ThinkOpen| || s[0..|ThinkOpen|][0] != '<';
      assert ThinkSpanEnd(s) == None;
      assert s[1..] == p[1..] + t;
      assert StripThink(s) == [s[0]] + StripThink(s[1..]);
      StripThinkKeepsPlainPrefix(p[1..], t);
      assert p == [p[0]] + p[1..];
    } else {
      assert p + t == t;
    }
  }

  /** A reasoning span at the front is removed, and scanning resumes just after it. */
  lemma StripThinkSpanStep(s: string, e: nat)
    requires ThinkSpanEnd(s) == Some(e)
    ensures e <= |s|
    ensures StripThink(s) == StripThink(s[e..])
  {
  }

  /** Where no span starts, the first character is kept and scanning moves on by one. */
  lemma StripThinkKeepStep(s: string)
    requires |s| > 0 && ThinkSpanEnd(s).None?
    ensures StripThink(s) == [s[0]] + StripThink(s[1..])
  {
  }

  /** Dropping the first character shifts every suffix position down by one. */
  lemma NoSpanShift(s: string, i: nat)
    requires 0 < i <= |s|
    requires forall j :: 0 <= j < i ==> ThinkSpanEnd(s[j..]).None?
    ensures forall j :: 0 <= j < i - 1 ==> ThinkSpanEnd(s[1..][j..]).None?
  {
    forall j | 0 <= j < i - 1 ensures ThinkSpanEnd(s[1..][j..]).None? {
      assert s[1..][j..] == s[j + 1..];
    }
  }

  lemma Reassemble(s: string, i: nat, r: string)
    requires 0 < i <= |s|
    ensures [s[0]] + (s[1..][..i - 1] + r) == s[..i] + r
  {
    assert [s[0]] + s[1..][..i - 1] == s[..i];
  }

  /**
   * Text before the first position where a span starts passes through
   * untouched; together with `StripThinkSpanStep` this pins down the
   * leftmost-first replacement.
   */
  lemma {:induction false} StripThinkKeepsUnmatchedPrefix(s: string, i: nat)
    requires i <= |s|
    requires forall j :: 0 <= j < i ==> ThinkSpanEnd(s[j..]).None?
    ensures StripThink(s) == s[..i] + StripThink(s[i..])
    decreases i
  {
    if i == 0 {
      assert s[..0] + s[0..] == s;
    } else {
      assert s[0..] == s;
      StripThinkKeepStep(s);
      NoSpanShift(s, i);
      StripThinkKeepsUnmatchedPrefix(s[1..], i - 1);
      assert s[1..][i - 1..] == s[i..];
      Reassemble(s, i, StripThink(s[i..]));
    }
  }

  /** A leading reasoning span whose body has no newline and no close tag is dropped whole. */
  lemma StripThinkDropsSpan(body: string, t: string)
    requires '\n' !in body
    requires forall i :: !OccursAt(body + ThinkClose, ThinkClose, i) || i == |body|
    ensures StripThink(ThinkOpen + body + ThinkClose + t) == StripThink(t)
  {
    var s := ThinkOpen + body + ThinkClose + t;
    var e := |ThinkOpen| + |body| + |ThinkClose|;
    assert s[..|ThinkOpen|] == ThinkOpen;
    assert s[e - |ThinkClose|..e] == ThinkClose;
    forall i | |ThinkOpen| <= i < e - |ThinkClose| ensures s[i] != '\n' {
      assert s[i] == body[i - |ThinkOpen|];
    }
    assert ThinkSpan(s, e);
    forall e': nat | e' < e ensures !ThinkSpan(s, e') {
      if ThinkSpan(s, e') {
        var k := e' - |ThinkClose| - |ThinkOpen|;
        assert (body + ThinkClose)[k..k + |ThinkClose|] == s[e' - |ThinkClose|..e'];
        assert OccursAt(body + ThinkClose, ThinkClose, k);
      }
    }
    assert s[e..] == t;
  }

  // ---------------------------------------------------------------------------
  // Locating the JSON payload

  /** Just after the first "```json" if there is one, else at the first `{`. */
  function JsonStart(c: string): (r: Option<nat>)
    ensures r.Some? ==> r.value <= |c|
    ensures IndexOf(c, JsonFence).Some? ==> r == Some(IndexOf(c, JsonFence).value + |JsonFence|)
    ensures IndexOf(c, JsonFence).None? ==> r.None? == (forall i :: 0 <= i < |c| ==> c[i] != '{')
    ensures IndexOf(c, JsonFence).None? && r.Some? ==>
      r.value < |c| && c[r.value] == '{' && forall i :: 0 <= i < r.value ==> c[i] != '{'
  {
    match IndexOf(c, JsonFence)
    case Some(i) => Some(i + |JsonFence|)
    case None =>
      var b := IndexOf(c, "{");
      assert forall i :: 0 <= i < |c| ==> (OccursAt(c, "{", i) <==> c[i] == '{') by {
        forall i | 0 <= i < |c| ensures OccursAt(c, "{", i) <==> c[i] == '{' {
          assert c[i..i + 1] == [c[i]];
        }
      }
      b
  }

  /** Just past the last `}`. */
  function JsonEnd(c: string): (r: Option<nat>)
    ensures r.Some? ==> 0 < r.value <= |c| && c[r.value - 1] == '}'
    ensures r.Some? ==> forall i :: r.value <= i < |c| ==> c[i] != '}'
    ensures r.None? <==> forall i :: 0 <= i < |c| ==> c[i] != '}'
  {
    match LastIndexOf(c, '}')
    case Some(i) => Some(i + 1)
    case None => None
  }

  /**
   * What `cleanOllamaResponse` does: it returns a string, or the slice
   * `cleaned[jsonStart:jsonEnd]` panics because the start lies past the end.
   */
  datatype Cleaned = Returned(text: string) | Panicked(start: nat, end: nat)

  /** `cleanOllamaResponse`, with JSON-object validation given as `isJsonObject`. */
  function CleanOllamaResponse(response: string, isJsonObject: string -> bool): (r: Cleaned)
    ensures r.Returned? ==> r.text == EmptyObject || isJsonObject(r.text)
    ensures r.Panicked? ==> r.end < r.start
  {
    var cleaned := StripThink(response);
    match JsonEnd(cleaned)
    case None => Returned(EmptyObject)
    case Some(end) =>
      match JsonStart(cleaned)
      case None => Returned(EmptyObject)
      case Some(start) =>
        if start > end then Panicked(start, end)
        else
          var content := TrimSpace(cleaned[start..end]);
          if isJsonObject(content) then Returned(content) else Returned(EmptyObject)
  }

  /** With a validator that accepts `{}`, every returned text is a JSON object. */
  lemma CleanedIsJsonObject(response: string, isJsonObject: string -> bool)
    requires isJsonObject(EmptyObject)
    ensures CleanOllamaResponse(response, isJsonObject).Returned? ==>
      isJsonObject(CleanOllamaResponse(response, isJsonObject).text)
  {
  }

  /**
   * A returned text other than `{}` is the trimmed span from the start marker
   * through the last `}` of the response with reasoning removed.
   */
  lemma CleanedIsTrimmedSpan(response: string, isJsonObject: string -> bool)
    ensures var r := CleanOllamaResponse(response, isJsonObject);
      var c := StripThink(response);
      r.Returned? && r.text != EmptyObject ==>
        && JsonStart(c).Some? && JsonEnd(c).Some?
        && JsonStart(c).value <= JsonEnd(c).value
        && c[JsonEnd(c).value - 1] == '}'
        && exists lead :: TrimmedBy(c[JsonStart(c).value..JsonEnd(c).value], r.text, lead)
  {
  }

  /**
   * When both bounds exist in order, the trimmed span is returned exactly when
   * it validates, and `{}` is returned otherwise.
   */
  lemma OrderedBoundsReturnValidatedSpan(response: string, isJsonObject: string -> bool)
    ensures var c := StripThink(response);
      JsonStart(c).Some? && JsonEnd(c).Some? && JsonStart(c).value <= JsonEnd(c).value ==>
        var t := TrimSpace(c[JsonStart(c).value..JsonEnd(c).value]);
        CleanOllamaResponse(response, isJsonObject) == (if isJsonObject(t) then Returned(t) else Returned(EmptyObject))
  {
  }

  /** A response with no `}` at all falls back to `{}`. */
  lemma NoClosingBraceFallsBack(response: string, isJsonObject: string -> bool)
    requires '}' !in response
    ensures CleanOllamaResponse(response, isJsonObject) == Returned(EmptyObject)
  {
    var c := StripThink(response);
    assert forall i :: 0 <= i < |c| ==> c[i] != '}';
  }

  /**
   * The slice panics exactly when a start marker exists and lies past the
   * position just after the last `}`; the source never guards this case.
   */
  lemma PanicWhenStartPastEnd(response: string, isJsonObject: string -> bool)
    ensures var c := StripThink(response);
      CleanOllamaResponse(response, isJsonObject).Panicked? <==>
        JsonStart(c).Some? && JsonEnd(c).Some? && JsonStart(c).value > JsonEnd(c).value
  {
  }

  /** "}x{": the last `}` ends at 1, the first `{` is at 2, so the slice [2:1] panics. */
  lemma BraceBeforeObjectPanics(isJsonObject: string -> bool)
    ensures CleanOllamaResponse("}x{", isJsonObject) == Panicked(2, 1)
  {
    var s := "}x{";
    forall i: nat ensures !OccursAt(s, ThinkOpen, i) {
    }
    StripThinkWithoutOpenTag(s);
    assert IndexOf(s, JsonFence) == None;
    assert OccursAt(s, "{", 2);
    assert !OccursAt(s, "{", 0) && !OccursAt(s, "{", 1);
    assert LastIndexOf(s, '}') == Some(0);
  }

  // ---------------------------------------------------------------------------
  // UnderstandQuery and ExpandQuery

  datatype UnderstandError =
    | CompletionFailed(cause: string)
    | ExtractionPanicked(start: nat, end: nat)
    | DecodeFailed(cleaned: string)

  /** The language-model backend: the user's query to a completion, or an error. */
  type Completion = string -> Result<string, string>

  /**
   * `UnderstandQuery`: a backend failure and an undecodable cleaned text are
   * both errors; the `{}` fallback of cleaning is decoded like any other text.
   */
  function UnderstandQuery(query: string, complete: Completion, isJsonObject: string -> bool,
                           decode: string -> Option<QueryUnderstanding>): (r: Result<QueryUnderstanding, UnderstandError>)
    ensures complete(query).Failure? ==> r == Failure(CompletionFailed(complete(query).error))
    ensures complete(query).Success? ==>
      match CleanOllamaResponse(complete(query).value, isJsonObject)
      case Panicked(start, end) => r == Failure(ExtractionPanicked(start, end))
      case Returned(text) =>
        && (decode(text).None? ==> r == Failure(DecodeFailed(text)))
        && (decode(text).Some? ==> r == Success(decode(text).value))
        && (text == EmptyObject || isJsonObject(text))
  {
    match complete(query)
    case Failure(e) => Failure(CompletionFailed(e))
    case Success(response) =>
      match CleanOllamaResponse(response, isJsonObject)
      case Panicked(start, end) => Failure(ExtractionPanicked(start, end))
      case Returned(text) =>
        match decode(text)
        case None => Failure(DecodeFailed(text))
        case Some(u) => Success(u)
  }

  /**
   * A completion without any `}` yields the empty understanding, provided `{}`
   * decodes to it (as `json.Unmarshal` does).
   */
  lemma UnparseableGivesEmptyUnderstanding(query: string, complete: Completion, isJsonObject: string -> bool,
                                           decode: string -> Option<QueryUnderstanding>)
    requires complete(query).Success? && '}' !in complete(query).value
    requires decode(EmptyObject) == Some(EmptyUnderstanding)
    ensures UnderstandQuery(query, complete, isJsonObject, decode) == Success(EmptyUnderstanding)
  {
    NoClosingBraceFallsBack(complete(query).value, isJsonObject);
  }

  /** The query followed by the expansion terms, then the sub-queries, in order and with repeats. */
  function Expansion(query: string, u: QueryUnderstanding): (r: seq<string>)
    ensures |r| == 1 + |u.expandedTerms| + |u.subQueries|
    ensures r[0] == query
    ensures forall i :: 0 <= i < |u.expandedTerms| ==> r[1 + i] == u.expandedTerms[i]
    ensures forall i :: 0 <= i < |u.subQueries| ==> r[1 + |u.expandedTerms| + i] == u.subQueries[i]
  {
    [query] + u.expandedTerms + u.subQueries
  }

  /** `ExpandQuery`: an error from understanding is passed on unchanged. */
  function ExpandQuery(query: string, complete: Completion, isJsonObject: string -> bool,
                       decode: string -> Option<QueryUnderstanding>): (r: Result<seq<string>, UnderstandError>)
    ensures UnderstandQuery(query, complete, isJsonObject, decode).Failure? ==>
      r == Failure(UnderstandQuery(query, complete, isJsonObject, decode).error)
    ensures UnderstandQuery(query, complete, isJsonObject, decode).Success? ==>
      r == Success(Expansion(query, UnderstandQuery(query, complete, isJsonObject, decode).value))
  {
    var u :- UnderstandQuery(query, complete, isJsonObject, decode);
    Success(Expansion(query, u))
  }

  const MultiLineBlock: string := "<think>\n</think>"

  lemma MultiLineBlockStartsNoSpan()
    ensures ThinkSpanEnd(MultiLineBlock) == None
  {
    var s := MultiLineBlock;
    assert OccursAt(s, ThinkOpen, 0);
    assert s[7] == '\n' && s[7..15] != ThinkClose;
    NewlineEndsSearch(s, 7);
  }

  lemma MultiLineBlockTailHasNoOpenTag()
    ensures forall i: nat :: !OccursAt(MultiLineBlock[1..], ThinkOpen, i)
  {
    var u := MultiLineBlock[1..];
    assert u == "think>\n</think>";
    forall i: nat ensures !OccursAt(u, ThinkOpen, i) {
      if i + |ThinkOpen| <= |u| {
        assert u[i] != '<' || u[i + 1] != 't';
        assert u[i..i + |ThinkOpen|][0] == u[i] && u[i..i + |ThinkOpen|][1] == u[i + 1];
      }
    }
  }

  lemma HeadTail(s: string)
    requires |s| > 0
    ensures [s[0]] + s[1..] == s
  {
  }

  /** Text that starts no span and holds no open tag after its first character is kept. */
  lemma StripThinkNoSpan(s: string)
    requires |s| > 0 && ThinkSpanEnd(s).None?
    requires forall i: nat :: !OccursAt(s[1..], ThinkOpen, i)
    ensures StripThink(s) == s
  {
    assert StripThink(s) == [s[0]] + StripThink(s[1..]);
    StripThinkWithoutOpenTag(s[1..]);
    HeadTail(s);
  }

  /** `.` does not match a newline, so a reasoning block spanning lines is kept. */
  lemma MultiLineReasoningKept()
    ensures StripThink(MultiLineBlock) == MultiLineBlock
  {
    MultiLineBlockStartsNoSpan();
    MultiLineBlockTailHasNoOpenTag();
    StripThinkNoSpan(MultiLineBlock);
  }

  const FencedReply: string := "```json\n{\"a\":1}\n```"

  lemma FencedReplyHasNoOpenTag()
    ensures forall i: nat :: !OccursAt(FencedReply, ThinkOpen, i)
  {
    var t := FencedReply;
    forall i: nat ensures !OccursAt(t, ThinkOpen, i) {
      assert i + |ThinkOpen| > |t| || (t[i] != '<' && t[i..i + |ThinkOpen|][0] == t[i]);
    }
  }

  lemma ReasoningStripped()
    ensures StripThink("<think>hm</think>" + FencedReply) == FencedReply
  {
    var x := "hm" + ThinkClose;
    forall i: nat | i < 2 ensures !OccursAt(x, ThinkClose, i) {
      assert x[i] != '<';
      assert i + |ThinkClose| > |x| || x[i..i + |ThinkClose|][0] != ThinkClose[0];
    }
    assert "<think>hm</think>" + FencedReply == ThinkOpen + "hm" + ThinkClose + FencedReply;
    StripThinkDropsSpan("hm", FencedReply);
    FencedReplyHasNoOpenTag();
    StripThinkWithoutOpenTag(FencedReply);
  }

  lemma FencedReplyStart()
    ensures JsonStart(FencedReply) == Some(7)
  {
    assert OccursAt(FencedReply, JsonFence, 0);
  }

  lemma FencedReplyEnd()
    ensures JsonEnd(FencedReply) == Some(15)
  {
    assert |FencedReply| == 19 && FencedReply[14] == '}';
    assert forall j :: 15 <= j < 19 ==> FencedReply[j] != '}';
  }

  lemma FencedReplyTrim()
    ensures TrimSpace(FencedReply[7..15]) == "{\"a\":1}"
  {
    var y := "{\"a\":1}";
    assert FencedReply[7..15] == ['\n'] + y;
    TrimSpaceAfterSpace('\n', y);
  }

  lemma FencedReplyBounds()
    ensures JsonStart(FencedReply) == Some(7)
    ensures JsonEnd(FencedReply) == Some(15)
    ensures TrimSpace(FencedReply[7..15]) == "{\"a\":1}"
  {
    FencedReplyStart();
    FencedReplyEnd();
    FencedReplyTrim();
  }

  /** A reasoning block followed by a fenced object: only the object is kept. */
  lemma ReasoningThenFencedObject(isJsonObject: string -> bool)
    requires isJsonObject("{\"a\":1}")
    ensures CleanOllamaResponse("<think>hm</think>" + FencedReply, isJsonObject) == Returned("{\"a\":1}")
  {
    ReasoningStripped();
    FencedReplyBounds();
  }
}

=== FILE: wrappers.dfy ===
/** Failure-compatible result types used by every component of the model. */
module Wrappers {

  /** An optional value: Go's `-1` sentinels and "ok" map lookups become `None`. */
  datatype Option<+T> = None | Some(value: T)

  /** A value or an error, standing for Go's `(T, error)` return pairs. */
  datatype Result<+R, +E> = Success(value: R) | Failure(error: E) {
    predicate IsFailure() {
      Failure?
    }

    function PropagateFailure<U>(): Result<U, E>
      requires Failure?
    {
      Failure(error)
    }

    function Extract(): R
      requires Success?
    {
      value
    }
  }
}
